=== FILE: README.md ===
# Mirabelle Home Assistant blueprint scripts, modelled in Dafny

The repository ships Home Assistant blueprints together with four small Node
scripts that work against a Home Assistant instance. This project models the
decision logic of those scripts and proves what it does:

- `update-automations` scans the automation blueprints of the repository. It
  keeps those whose name carries the `[CDA]` marker and lists the automations
  of the instance. It pairs each marked automation with a blueprint through a
  lookup key and reloads every paired automation, counting the successes
  (module `UpdateAutomations`).
- `install-blueprints` first probes the connection. It then scans the
  blueprints of four domains and prints, for each one, an import link to its
  raw file on GitHub (module `InstallBlueprints`).
- `test-connection` is the connectivity probe. It caches its verdict, so
  sequential calls issue at most one request (module `ConnectionTest`, a class
  whose fields are the token read at load time, that cache and a ghost request
  counter).
- `generate_cover` derives a cover id and helper entity names from a display
  name. It fills the placeholders of a template in a fixed order and validates
  its arguments (module `GenerateCover`).

The scanners share one rule for reading blueprint files (`BlueprintFiles`). The
JavaScript built-ins that the decisions rest on are modelled with their
ECMA-262 semantics:

- `startsWith`, `endsWith`, `split`, `trim` and `toLowerCase` (`JsString`);
- `parseInt` with radix 10 and `Number#toString` for integers (`JsNumber`);
- `String#replace` with a global pattern, including the `$` patterns of a
  replacement string (the GetSubstitution operation of ECMA-262)
  (`JsReplace`);
- `encodeURIComponent` (the URI handling functions of ECMA-262), with a
  percent-decoder for the round trip (`UriComponent`).

Everything the scripts do outside the process is a parameter of the model:

- directory listings (`None` where `readdirSync` throws);
- file reads (`None` where `readFileSync` throws);
- the YAML parser (`None` where it throws);
- each HTTP response;
- the environment variables.

The three scanning and update loops are methods with loop invariants, each
proved equal to a fold that specifies it: `UpdateAutomations.GetBlueprints`,
`UpdateAutomations.UpdateAll` and `InstallBlueprints.GetBlueprints`. The lemmas
are stated about those folds. The loop that prints the install links only
formats each entry, and is modelled as the map `InstallBlueprints.Listings`.

Behaviour of the scripts worth noting, which the model follows as written:

- The reload payload carries the automation's current inputs only. It does not
  merge in the blueprint's inputs (`UpdateAutomations.NoInputMerge`).
- Two blueprint files with the same name: the last one wins
  (`UpdateAutomations.CollectLastWins`).
- A failed automation listing ends the run with status 1.
- No install call is ever issued for an unmatched blueprint.

## Model

| member | source | states |
|---|---|---|
| BlueprintFiles.Load | scripts/update-automations.ts:73-80 | A directory entry yields a blueprint iff it ends in `.yaml`, reads, parses and its `blueprint.name` starts with `[CDA]`, and then it is the parsed document; any failure yields nothing |
| UpdateAutomations.GetHeaders | scripts/update-automations.ts:56-64 | Headers exist exactly when the token is set and non-empty; the `Authorization` header is `Bearer ` followed by the token |
| UpdateAutomations.Collect | scripts/update-automations.ts:69-88 | Every stored key starts with `[CDA]` and is the name of the blueprint stored under it |
| UpdateAutomations.GetBlueprints | scripts/update-automations.ts:69-88 | The scanning loop builds exactly the dictionary `Collect` specifies |
| UpdateAutomations.CollectSkipsFailed | scripts/update-automations.ts:75-83 | A file that fails to read, parse or carry the marker leaves the result as if it were not listed; every other file is still processed |
| UpdateAutomations.CollectLastWins | scripts/update-automations.ts:79 | The entry under a name is the blueprint of the last file that yields that name |
| UpdateAutomations.CollectFromFiles | scripts/update-automations.ts:73-80 | Every stored entry is the blueprint some listed file yields |
| UpdateAutomations.MarkerSplit | scripts/update-automations.ts:155 | For a name starting with `[CDA]`, `split(']')` has at least two pieces and the second is the text after the marker up to the next `]` |
| UpdateAutomations.LookupKey | scripts/update-automations.ts:155 | The lookup key `name.split(']')[1].trim()` never contains `]` |
| UpdateAutomations.LookupKeyOfPlainName | scripts/update-automations.ts:155 | For `[CDA]` followed by text without `]`, the key is that text trimmed |
| UpdateAutomations.MatchedBlueprint | scripts/update-automations.ts:153-156 | A blueprint is picked only for a name starting with `[CDA]` whose lookup key is a key of the dictionary |
| UpdateAutomations.MarkedHasBracket | scripts/update-automations.ts:78-79 | Every name that starts with the marker contains `]` |
| UpdateAutomations.MatchNeverHits | scripts/update-automations.ts:155-156 | Against a dictionary whose keys all start with `[CDA]`, the lookup never succeeds |
| UpdateAutomations.HallwayLightNotMatched | scripts/update-automations.ts:155-156 | The automation `[CDA] Hallway Light` gets the key `Hallway Light` and is not paired with the blueprint `[CDA] Hallway Light` |
| UpdateAutomations.CollectByKey | scripts/update-automations.ts:79 | Corrected scan: every entry is a marked blueprint stored under the lookup key of its own name |
| UpdateAutomations.KeyedMatchFinds | scripts/update-automations.ts:155-156 | With the corrected index, an automation is paired whenever some file yields a blueprint with the same key, and only with such a blueprint |
| UpdateAutomations.HallwayLightMatchedByKey | scripts/update-automations.ts:155-156 | With the corrected index built from a file that yields the blueprint `[CDA] Hallway Light`, the automation `[CDA] Hallway Light` is paired with that blueprint |
| UpdateAutomations.KeyedUpdateCounts | scripts/update-automations.ts:155-160 | With the corrected index, a paired automation whose fetch succeeds and whose reload of the payload built from its keyed blueprint succeeds is counted as updated |
| UpdateAutomations.UpdateAutomation | scripts/update-automations.ts:106-125 | The update first fetches the automation; when the fetch fails that is its only call and it fails; otherwise it posts the payload built from the fetched automation and succeeds iff that post succeeds |
| UpdateAutomations.PayloadKeepsCurrentInputs | scripts/update-automations.ts:113-117 | The payload carries the blueprint, `automation_id` is the id, and `input` is the automation's current inputs, or `{}` when it has none |
| UpdateAutomations.Payload | scripts/update-automations.ts:113-117 | The reload body: the blueprint, the automation id and the current inputs, `{}` when there are none (properties in `PayloadKeepsCurrentInputs` and `NoInputMerge`) |
| UpdateAutomations.NoInputMerge | scripts/update-automations.ts:113-117 | Current inputs `{brightness: 80}` are posted as they are, whatever inputs the blueprint declares |
| UpdateAutomations.Process | scripts/update-automations.ts:153-161 | One pass of the loop body: a marked automation whose key is in the dictionary is updated, anything else makes no call (properties in `UnmarkedUntouched`, `MatchNeverHits` and `UpdateAll`) |
| UpdateAutomations.RunUpdates | scripts/update-automations.ts:150-163 | The counter never exceeds the number of automations |
| UpdateAutomations.UpdateAll | scripts/update-automations.ts:150-163 | The update loop computes exactly the counter and call trace of `RunUpdates` |
| UpdateAutomations.UnmarkedUntouched | scripts/update-automations.ts:153-154 | An automation without a name or without the marker is neither fetched nor posted |
| UpdateAutomations.RunUpdatesNeverHits | scripts/update-automations.ts:150-165 | Over the scanned dictionary the loop makes no remote call and `updated` ends at 0 |
| UpdateAutomations.ExitCode | scripts/update-automations.ts:130-176 | Status 0 exactly for an empty scan or a finished loop |
| UpdateAutomations.Run | scripts/update-automations.ts:130-170 | A missing token exits before any step; a failed directory read stops after the scan; an empty scan stops before any remote call; otherwise the automations are listed, and the run fails or finishes with 0 updates |
| ConnectionTest.Verdict | scripts/test-connection.ts:63-74 | A probe succeeds only on a response, never on an error |
| ConnectionTest.Diagnose | scripts/test-connection.ts:63-89 | The report is `Connected` iff the response has status 200 and data |
| ConnectionTest.ErrorsOnlyChangeTheMessage | scripts/test-connection.ts:75-89 | Every error is a failure; `ECONNREFUSED` and 401 only choose the message, `ECONNREFUSED` first |
| ConnectionTest.ExitCode | scripts/test-connection.ts:94-97 | Status 0 on success, 1 on failure |
| ConnectionTest.Probe.constructor | scripts/test-connection.ts:18-23 | A fresh probe has an empty cache and has issued no request |
| ConnectionTest.Probe.TestConnection | scripts/test-connection.ts:39-91 | A cached verdict is returned without a request; a missing token gives `false` without a request; otherwise one request decides; every path caches what it returns |
| ConnectionTest.RepeatedCalls | scripts/test-connection.ts:41-43 | Any number of calls issue at most one request and all return the first verdict |
| InstallBlueprints.HaUrl | scripts/install-blueprints.ts:30 | The base URL is never empty |
| InstallBlueprints.AddFiles | scripts/install-blueprints.ts:43-55 | The inner loop only adds marked blueprints |
| InstallBlueprints.AddDomains | scripts/install-blueprints.ts:39-59 | The outer loop only adds marked blueprints |
| InstallBlueprints.CollectAll | scripts/install-blueprints.ts:35-62 | Every entry of the scan is a marked blueprint |
| InstallBlueprints.GetBlueprints | scripts/install-blueprints.ts:35-62 | The nested scanning loops build exactly the dictionary `CollectAll` specifies |
| InstallBlueprints.DomainsWellFormed | scripts/install-blueprints.ts:37 | The four domains are distinct and none contains `/` |
| InstallBlueprints.Key | scripts/install-blueprints.ts:49 | The dictionary key `domain/file` (properties in `KeyInjective` and `TypeLabelOfKey`) |
| InstallBlueprints.TypeLabel | scripts/install-blueprints.ts:96 | The displayed type `path.split('/')[0]` (property in `TypeLabelOfKey`) |
| InstallBlueprints.TypeLabelOfKey | scripts/install-blueprints.ts:96 | The displayed type `path.split('/')[0]` of a `domain/file` key is its domain |
| InstallBlueprints.KeyInjective | scripts/install-blueprints.ts:49 | Distinct (domain, file) pairs get distinct keys, so no entry overwrites another |
| InstallBlueprints.AddFilesFrame | scripts/install-blueprints.ts:43-55 | The inner loop leaves every key of another domain as it was |
| InstallBlueprints.AddFilesFinds | scripts/install-blueprints.ts:43-55 | A file of the domain that yields a blueprint is stored under its key with that blueprint |
| InstallBlueprints.AddFilesOnly | scripts/install-blueprints.ts:43-55 | Every key the inner loop adds belongs to a listed file that yields the stored blueprint |
| InstallBlueprints.AddDomainsFrame | scripts/install-blueprints.ts:39-59 | The outer loop leaves every key outside the scanned domains as it was |
| InstallBlueprints.AddDomainsFinds | scripts/install-blueprints.ts:39-59 | A listed file of a scanned domain that yields a blueprint is stored under its key with that blueprint |
| InstallBlueprints.AddDomainsOnly | scripts/install-blueprints.ts:39-59 | Every key the outer loop adds belongs to a listed file of a scanned domain that yields the stored blueprint |
| InstallBlueprints.CollectAllFinds | scripts/install-blueprints.ts:35-62 | Every listed, loadable, marked file of the four domains is in the result under `domain/file`, whatever fails elsewhere |
| InstallBlueprints.CollectAllOnly | scripts/install-blueprints.ts:35-62 | Nothing else is in the result; each key's type label is the domain it came from |
| InstallBlueprints.UnreadableDomainSkipped | scripts/install-blueprints.ts:41-58 | A domain whose directory cannot be listed contributes no entry |
| InstallBlueprints.InstallLink | scripts/install-blueprints.ts:67-70 | The link is the import page of the base URL, and its parameter percent-decodes to the raw GitHub URL of the path |
| InstallBlueprints.InstallLinkQueryIsOneParameter | scripts/install-blueprints.ts:69 | The encoded parameter contains none of `/ : ? & = # +` |
| InstallBlueprints.ExitCode | scripts/install-blueprints.ts:75-113 | Status 1 exactly when the connection test failed |
| InstallBlueprints.Listings | scripts/install-blueprints.ts:93-99 | One listing per scanned entry, keyed by its path |
| InstallBlueprints.ListingSpec | scripts/install-blueprints.ts:93-99 | Each listing names a marked blueprint, shows as type the domain its file was listed in, and links to an import that decodes to its raw URL |
| InstallBlueprints.Run | scripts/install-blueprints.ts:75-107 | The run goes on only when the connection test passes: a cached verdict is reused without a request; otherwise the run passes exactly when the token is set and the one request it issues succeeds, and a missing token issues none. A failed test stops the run before the scan; an empty scan ends it with no links; otherwise every entry is listed |
| GenerateCover.Collapse | scripts/generate_cover.ts:15 | Replacing whitespace runs by `_` leaves no whitespace |
| GenerateCover.CoverId | scripts/generate_cover.ts:15 | The cover id holds no whitespace |
| GenerateCover.CollapseOfNoSpace | scripts/generate_cover.ts:15 | Text without whitespace is unchanged by the whitespace rule |
| GenerateCover.CollapseRun | scripts/generate_cover.ts:15 | A maximal run of whitespace becomes one `_` |
| GenerateCover.CollapseKeepsLower | scripts/generate_cover.ts:15 | The whitespace rule adds no upper-case letter |
| GenerateCover.ToLowerOfLower | scripts/generate_cover.ts:15 | Lower-casing text without upper-case letters changes nothing |
| GenerateCover.CoverIdIdempotent | scripts/generate_cover.ts:15 | The cover id has no upper-case letter, and deriving the id of an id gives it back |
| GenerateCover.LivingRoomBlindId | scripts/generate_cover.ts:54 | "Living Room Blind" has the id `living_room_blind` |
| GenerateCover.HelperNames | scripts/generate_cover.ts:16-19 | Each helper is the `input_text` entity of its object id; the two helpers differ; no helper name holds whitespace |
| GenerateCover.PositionHelper | scripts/generate_cover.ts:16 | The entity `input_text.<id>_position` (properties in `HelperNames`) |
| GenerateCover.DirectionHelper | scripts/generate_cover.ts:17 | The entity `input_text.<id>_direction` (properties in `HelperNames`) |
| GenerateCover.InputPositionHelperName | scripts/generate_cover.ts:18 | The object id `<id>_position` (properties in `HelperNames`) |
| GenerateCover.InputDirectionHelperName | scripts/generate_cover.ts:19 | The object id `<id>_direction` (properties in `HelperNames`) |
| GenerateCover.Text | scripts/generate_cover.ts:26-33 | Every placeholder starts with `{` and is at least ten characters long; only `{{ name }}` is exactly ten |
| GenerateCover.Value | scripts/generate_cover.ts:15-33 | The printed travel time reads back through `parseInt` as the travel time; the cover id and the four helper names hold no whitespace |
| GenerateCover.Fill | scripts/generate_cover.ts:25-33 | The chain of global replaces, one placeholder after another in the order of the source, each value used as a replacement template (properties in `FillWithoutBrace`, `FillShort` and `FillTwoSteps`) |
| GenerateCover.GenerateCoverConfig | scripts/generate_cover.ts:14-33 | `generateCoverConfig` before validation: the template through the chain in the source's order (properties in `TemplateWithoutPlaceholders`, `CoverIdPlaceholder` and `DollarInNameReinsertsPlaceholder`) |
| GenerateCover.FillWithoutBrace | scripts/generate_cover.ts:25-33 | Text without `{` passes any part of the substitution chain unchanged |
| GenerateCover.TemplateWithoutPlaceholders | scripts/generate_cover.ts:25-33 | A template without `{` is output as it is, whatever the arguments |
| GenerateCover.FillShort | scripts/generate_cover.ts:25-33 | Text of at most ten characters passes every step except the name step unchanged |
| GenerateCover.CoverIdPlaceholder | scripts/generate_cover.ts:26 | `{{ cover_id }}` becomes the cover id when the id holds neither `$` nor `{` |
| GenerateCover.DollarInNameReinsertsPlaceholder | scripts/generate_cover.ts:27 | As written, the name `$&` turns `{{ name }}` back into `{{ name }}` |
| GenerateCover.FillLiteral | scripts/generate_cover.ts:25-33 | The corrected chain: the same order, each value inserted verbatim through `ReplaceAllLiteral` (property in `FillLiteralWithoutBrace`) |
| GenerateCover.GenerateCoverConfigLiteral | scripts/generate_cover.ts:14-33 | The corrected `generateCoverConfig`: the template through the verbatim chain (properties in `LiteralNameIsVerbatim`) |
| GenerateCover.FillLiteralWithoutBrace | scripts/generate_cover.ts:25-33 | With verbatim insertion, text without `{` also passes the chain unchanged |
| GenerateCover.LiteralNameIsVerbatim | scripts/generate_cover.ts:27 | With verbatim insertion, `{{ name }}` becomes the name exactly for every name without `{`, `$` included |
| GenerateCover.ExitCode | scripts/generate_cover.ts:48-81 | Status 0 exactly when the configuration was written |
| GenerateCover.Run | scripts/generate_cover.ts:48-81 | Other than three arguments is a usage error; a travel time without leading digits is rejected; output is written iff the template reads, the filled template is valid YAML and the write succeeds, and then it is the filled template |
| GenerateCover.TravelTimeExamples | scripts/generate_cover.ts:59-64 | `30s` is accepted as 30; `abc` ends with status 1 |
| JsString.Split | scripts/update-automations.ts:155 | `split` gives at least one piece, and no piece holds the separator |
| JsString.StartsWith | scripts/update-automations.ts:78 | `startsWith`: the prefix is the first characters of the text |
| JsString.EndsWith | scripts/update-automations.ts:74 | `endsWith`: the suffix is the last characters of the text |
| JsString.JoinSplit | scripts/update-automations.ts:155 | Joining the pieces with the separator gives the text back |
| JsString.SplitJoin | scripts/update-automations.ts:155 | Splitting pieces joined by a separator they lack gives the pieces back |
| JsString.SplitAfterHead | scripts/install-blueprints.ts:96 | Text up to the first separator is the first piece, and the second piece starts after it |
| JsString.TrimStartSpec | scripts/update-automations.ts:155 | Trimming the start removes exactly the leading whitespace |
| JsString.TrimEndSpec | scripts/update-automations.ts:155 | Trimming the end removes exactly the trailing whitespace |
| JsString.Trim | scripts/update-automations.ts:155 | `trim`: leading, then trailing whitespace removed (properties in `TrimSpec`, `TrimIdempotent` and `TrimKeepsAbsence`) |
| JsString.TrimSpec | scripts/update-automations.ts:155 | `trim` keeps the middle slice between the leading and trailing whitespace and starts and ends with non-whitespace |
| JsString.TrimIdempotent | scripts/update-automations.ts:155 | Trimming twice is trimming once |
| JsString.TrimKeepsAbsence | scripts/update-automations.ts:155 | Trimming adds no character |
| JsString.ToLower | scripts/generate_cover.ts:15 | `toLowerCase` keeps the length of the text (further properties in `ToLowerSpec`, `ToLowerAppend` and `ToLowerIdempotent`) |
| JsString.ToLowerSpec | scripts/generate_cover.ts:15 | `toLowerCase` maps each character through the ASCII lower-case rule and leaves no upper-case letter |
| JsString.ToLowerAppend | scripts/generate_cover.ts:15 | Lower-casing distributes over concatenation |
| JsString.ToLowerIdempotent | scripts/generate_cover.ts:15 | Lower-casing twice is lower-casing once |
| JsNumber.LeadingDigits | scripts/generate_cover.ts:59 | The digits `parseInt` reads are the longest all-digit prefix |
| JsNumber.ParseInt | scripts/generate_cover.ts:59 | `parseInt(s, 10)`: leading whitespace, one optional sign, the longest run of digits, NaN when that run is empty (properties in `ParseIntOfParts` and `ParseIntNaN`) |
| JsNumber.NatToString | scripts/generate_cover.ts:29 | The decimal text of a number is non-empty and all digits |
| JsNumber.DigitsValueOfNatToString | scripts/generate_cover.ts:29 | Reading back the decimal text of a number gives the number |
| JsNumber.IntToString | scripts/generate_cover.ts:29 | `toString` of an integer: a `-` for a negative number, then its digits (property in `ParseIntOfIntToString`) |
| JsNumber.ParseIntOfParts | scripts/generate_cover.ts:59 | Whitespace, an optional sign, digits, then a non-digit parse to the signed value of the digits |
| JsNumber.ParseIntNaN | scripts/generate_cover.ts:59-61 | `parseInt` is NaN iff no digit follows the leading whitespace and optional sign |
| JsNumber.ParseIntOfIntToString | scripts/generate_cover.ts:29 | Parsing the text of an integer gives it back |
| JsNumber.ParseIntWithUnit | scripts/generate_cover.ts:59 | `parseInt("30s")` is 30 |
| JsNumber.ParseIntOfLetters | scripts/generate_cover.ts:59-61 | `parseInt("abc")` is NaN |
| JsReplace.SubstitutionOfPlain | scripts/generate_cover.ts:26-33 | A replacement without `$` is inserted as it is |
| JsReplace.Substitution | scripts/generate_cover.ts:26-33 | GetSubstitution without capture groups: `$$`, `$&`, `` $` `` and `$'` expanded, every other character copied (properties in `SubstitutionOfPlain`, `SubstitutionOfEscaped` and `ReplaceAllWhole`) |
| JsReplace.ReplaceFrom | scripts/generate_cover.ts:26-33 | The `/g` scan from an index: leftmost matches, non-overlapping, each replaced by its substitution (properties in `ReplaceAllPlain` and `ReplaceAllLiteral`) |
| JsReplace.ReplaceAll | scripts/generate_cover.ts:26-33 | `s.replace(/pattern/g, replacement)`: the scan from index 0 (properties in `ReplaceAllPlain`, `ReplaceAllAbsent`, `ReplaceAllWhole` and `ReplaceAllByItself`) |
| JsReplace.SplitOn | scripts/generate_cover.ts:26-33 | Cutting at the matches of a pattern gives at least one piece |
| JsReplace.JoinSplitOn | scripts/generate_cover.ts:26-33 | Rejoining the pieces with the pattern gives the text back |
| JsReplace.SplitOnPiecesFree | scripts/generate_cover.ts:26-33 | No piece contains the pattern |
| JsReplace.ShortHasNoOccurrence | scripts/generate_cover.ts:26-33 | Text shorter than a pattern does not contain it |
| JsReplace.SplitOnAbsent | scripts/generate_cover.ts:26-33 | Text without the pattern is one piece |
| JsReplace.ReplaceAllPlain | scripts/generate_cover.ts:26-33 | A global replace with a replacement without `$` is the pieces between matches joined by the replacement |
| JsReplace.ReplaceAllAbsent | scripts/generate_cover.ts:26-33 | Replacing a pattern that does not occur changes nothing |
| JsReplace.ReplaceAllWhole | scripts/generate_cover.ts:26-33 | Replacing the whole text gives the replacement with its `$` patterns expanded |
| JsReplace.ReplaceAllByItself | scripts/generate_cover.ts:26-33 | Replacing a pattern without `$` by itself changes nothing |
| JsReplace.PlaceholderCanReform | scripts/generate_cover.ts:27 | Removing every `{{ name }}` from `{{{ name }}{ name }}` forms a new `{{ name }}` |
| JsReplace.EscapeDollars | scripts/generate_cover.ts:26-33 | Text without `$` needs no escaping |
| JsReplace.SubstitutionOfEscaped | scripts/generate_cover.ts:26-33 | An escaped replacement is inserted as the original text |
| JsReplace.ReplaceAllLiteral | scripts/generate_cover.ts:26-33 | Verbatim replacement is the pieces between matches joined by the value, whatever the value holds |
| UriComponent.HexDigit | scripts/install-blueprints.ts:69 | Hex digits are unreserved characters |
| UriComponent.HexRoundTrip | scripts/install-blueprints.ts:69 | A hex digit reads back as its value |
| UriComponent.Utf8 | scripts/install-blueprints.ts:69 | A character is one to four UTF-8 bytes |
| UriComponent.Utf8RoundTrip | scripts/install-blueprints.ts:69 | The UTF-8 bytes of a non-ASCII character are a well-formed sequence that decodes to it |
| UriComponent.EscapeBytes | scripts/install-blueprints.ts:69 | Three characters per byte, each an unreserved character or `%` |
| UriComponent.EscapeBytesAt | scripts/install-blueprints.ts:69 | Byte `k` becomes the three characters from index `3k`: `%` and the two upper-case hex digits of the byte |
| UriComponent.Encode | scripts/install-blueprints.ts:69 | `encodeURIComponent` outputs only unreserved characters and `%` |
| UriComponent.Decode | scripts/install-blueprints.ts:69 | The percent-decoder that inverts `encodeURIComponent`, failing on a malformed escape (property in `DecodeEncode`) |
| UriComponent.DecodeEncode | scripts/install-blueprints.ts:69 | Percent-decoding the encoding of any text gives the text back |

## Left out

- HTTP: the axios instance, its base URL, timeout and TLS settings are not modelled. Each request is a parameter giving its outcome. Under axios's default `validateStatus` a status outside 200..299 rejects the request; the probe's response type `ConnectionTest.AxiosResponse` therefore admits a resolved reply only with a 2xx status, and a 401 arrives as an `HttpError`.
- Filesystem and console: `readdirSync`, `readFileSync`, `mkdirSync`, `existsSync` and `writeFileSync` are parameters, and console output is not modelled. The install listings are returned as a map instead of printed.
- The YAML parser is a parameter, in the scanners and in the validation step of the cover generator. So is `dotenv`, which only supplies the environment.
- `process.exit` is an outcome value with its exit status. The fatal-error handlers of the `main().catch` calls are covered only where an exception can reach them.
- Object key order is not modelled: dictionaries are maps. So the order in which the blueprint dictionaries are filled and the order in which the install links are printed are not captured. The automations are visited in the order of their listing.
- `in` is modelled as an own-key lookup. Keys inherited from `Object.prototype`, such as `toString`, are not modelled.
- `toLowerCase` is modelled for ASCII letters only. The whitespace of `\s`, of `trim` and of the whitespace skip in `parseInt` is modelled as the six ASCII whitespace characters (space, tab, line feed, vertical tab, form feed, carriage return), not the full Unicode set: for instance `parseInt("\u00A030")` is 30 in JavaScript but NaN in the model, and `trim` keeps a leading no-break space.
- JavaScript strings are UTF-16 code units; the model's characters are Unicode scalar values. A lone surrogate, on which `encodeURIComponent` throws, cannot be expressed.
- `travelTime.toString()` is modelled for exact integers. Travel times above 2^53 are not modelled: JavaScript rounds them to a double, and from 10^21 on `toString` prints an exponent form that `parseInt` reads back as its leading digits.
- GenerateCover.Value: its round trip `ParseInt(v) == Some(travelTime)` is a property of the model's exact integers; in JavaScript it holds only below 2^53, for the reason in the line above.
- The test-connection module's URL, SSL and timeout logging is not modelled.
- Calls to `testConnection` are modelled as sequential: each call runs to its end before the next one starts. The source reads the cache before awaiting the request and writes it afterwards, so two overlapping calls would each issue a request; the model's `Probe.TestConnection` is atomic and does not capture that interleaving.
- The "no occurrence of a placeholder remains after its step" reading of the substitution chain does not hold, even for values without the placeholder: text around a match can form a new one (`JsReplace.PlaceholderCanReform`). The model instead proves what a step yields: the pieces between matches joined by the value (`JsReplace.ReplaceAllPlain`, `JsReplace.SplitOnPiecesFree`).

## Findings

| source | as written | input that shows it | evidently intended | confidence | as-written member | corrected member |
|---|---|---|---|---|---|---|
| scripts/update-automations.ts:155-156 | The lookup key `name.split(']')[1].trim()` is looked up in a dictionary keyed by full names, and every full name starts with `[CDA]`, so no key can match | Blueprint `[CDA] Hallway Light` and automation `[CDA] Hallway Light`: the key `Hallway Light` is not among the keys | Index the blueprints by the same key the automations are looked up with | high; not executed | UpdateAutomations.HallwayLightNotMatched | UpdateAutomations.KeyedMatchFinds |
| scripts/generate_cover.ts:27 | The name and other values are passed to `replace` as replacement strings, whose `$` patterns (`$&`, `$$`, ...) are expanded | The name `$&` turns `{{ name }}` into `{{ name }}` instead of `$&` | Insert each value verbatim, through a replacer function or by escaping `$` | medium; not executed | GenerateCover.DollarInNameReinsertsPlaceholder | GenerateCover.LiteralNameIsVerbatim |

`UpdateAutomations.Run` and `GenerateCover.Run` model the code as written. The corrected definitions are
`UpdateAutomations.CollectByKey` and `GenerateCover.GenerateCoverConfigLiteral`. Their properties are proved by the lemmas named in the last column and by `UpdateAutomations.KeyedUpdateCounts`.

=== FILE: blueprint_files.dfy ===
/**
 * What both blueprint scanners share: the parsed blueprint document, the
 * `[CDA]` deployment marker, and the rule deciding whether one directory
 * entry yields a blueprint.
 */
module BlueprintFiles {
  import opened Wrappers
  import opened JsString

  /** The prefix that marks a blueprint (and an automation) as managed by these scripts. */
  const Marker: string := "[CDA]"

  /**
   * A parsed blueprint file: the fields of its `blueprint` section. `name`
   * is absent when the document has no `blueprint.name`. Input values are
   * carried as their text: the scripts pass them through and never inspect
   * them.
   */
  datatype Blueprint = Blueprint(name: Option<string>, description: string, domain: string, input: map<string, string>)

  /** `blueprint?.blueprint?.name?.startsWith('[CDA]')` */
  predicate IsManaged(bp: Blueprint) {
    bp.name.Some? && StartsWith(bp.name.value, Marker)
  }

  /**
   * The blueprint a directory entry yields: only a `.yaml` file whose
   * content could be read (`content`) and parsed (`parse`, which is `None`
   * where the YAML parser throws) and whose name carries the marker. Every
   * other entry yields nothing, and a failure is confined to its own entry.
   */
  function Load(file: string, content: Option<string>, parse: string -> Option<Blueprint>): (r: Option<Blueprint>)
    ensures r.Some? <==>
      EndsWith(file, ".yaml") && content.Some? && parse(content.value).Some? && IsManaged(parse(content.value).value)
    ensures r.Some? ==> r.value == parse(content.value).value
  {
    if !EndsWith(file, ".yaml") || content.None? then None
    else
      var parsed := parse(content.value);
      if parsed.Some? && IsManaged(parsed.value) then parsed else None
  }
}

=== FILE: connection_test.dfy ===
/**
 * The connectivity probe: one `GET /api/` against Home Assistant whose
 * verdict is cached for the rest of the process. The response of the
 * request is a parameter; the number of requests issued is ghost state.
 */
module ConnectionTest {
  import opened Wrappers

  /** How the `GET /api/` request ended. */
  datatype Response =
    | Reply(status: int, hasData: bool)                    // the request resolved; `hasData`: `response.data` is truthy
    | HttpError(code: Option<string>, errorStatus: Option<int>) // an axios error, with `error.code` and `error.response?.status`
    | OtherError                                           // anything else thrown

  /**
   * What axios can resolve with: under its default `validateStatus` a status
   * outside 200..299 rejects the request, so it arrives as an `HttpError`.
   */
  predicate Deliverable(response: Response) {
    response.Reply? ==> 200 <= response.status < 300
  }

  /** A response as the `GET /api/` request can end. */
  type AxiosResponse = r: Response | Deliverable(r) witness OtherError

  /** The diagnosis a probe prints. */
  datatype Report =
    | FromCache
    | TokenMissing
    | Connected
    | BadReply
    | Refused
    | AuthenticationFailed
    | RequestFailed
    | UnexpectedError

  /** `response.status === 200 && response.data`; every error is a failure. */
  function Verdict(response: Response): (ok: bool)
    ensures ok ==> response.Reply?
  {
    response.Reply? && response.status == 200 && response.hasData
  }

  /** The message for a response: `ECONNREFUSED` is checked before status 401. */
  function Diagnose(response: Response): (report: Report)
    ensures report == Connected <==> Verdict(response)
  {
    match response
    case Reply(_, _) => if Verdict(response) then Connected else BadReply
    case HttpError(code, status) =>
      if code == Some("ECONNREFUSED") then Refused
      else if status == Some(401) then AuthenticationFailed
      else RequestFailed
    case OtherError => UnexpectedError
  }

  /** A refused connection and a rejected token change the message, never the verdict. */
  lemma ErrorsOnlyChangeTheMessage(code: Option<string>, status: Option<int>)
    ensures !Verdict(HttpError(code, status)) && !Verdict(OtherError)
    ensures Diagnose(HttpError(code, status)) == Refused <==> code == Some("ECONNREFUSED")
    ensures Diagnose(HttpError(code, status)) == AuthenticationFailed <==> code != Some("ECONNREFUSED") && status == Some(401)
  {
  }

  /** `process.exit(success ? 0 : 1)` */
  function ExitCode(success: bool): (code: int)
    ensures code == 0 || code == 1
    ensures code == 0 <==> success
  {
    if success then 0 else 1
  }

  /** The module-level state of the probe. */
  class Probe {
    /** `HA_TOKEN`, read once when the module loads. */
    const token: Option<string>
    /** `connectionTestResult`: `None` for `null`. */
    var cache: Option<bool>
    /** How many `GET /api/` requests have been issued. */
    ghost var requests: nat

    /** At most one request, and only one that filled the cache. */
    ghost predicate Valid()
      reads this
    {
      requests <= 1 && (cache.None? ==> requests == 0)
    }

    constructor (token: Option<string>)
      ensures this.token == token && cache == None && requests == 0
      ensures Valid()
    {
      this.token := token;
      cache := None;
      requests := 0;
    }

    /**
     * `testConnection()`, where `response` is what the request would return.
     * A cached verdict is returned without a request; a missing token gives
     * `false` without a request; otherwise one request decides. Every path
     * caches what it returns.
     */
    method TestConnection(response: AxiosResponse) returns (ok: bool, report: Report)
      requires Valid()
      modifies this
      ensures Valid()
      ensures cache == Some(ok)
      ensures old(cache).Some? ==> ok == old(cache).value && report == FromCache && requests == old(requests)
      ensures old(cache).None? && (token.None? || token.value == []) ==>
        !ok && report == TokenMissing && requests == old(requests)
      ensures old(cache).None? && token.Some? && token.value != [] ==>
        ok == Verdict(response) && report == Diagnose(response) && requests == old(requests) + 1
    {
      if cache.Some? {
        return cache.value, FromCache;
      }
      if token.None? || token.value == [] {
        cache := Some(false);
        return false, TokenMissing;
      }
      requests := requests + 1;
      ok := Verdict(response);
      report := Diagnose(response);
      cache := Some(ok);
    }
  }

  /**
   * Any number of calls on one probe issue at most one request, and every
   * call returns the first call's verdict.
   */
  method RepeatedCalls(probe: Probe, responses: seq<AxiosResponse>) returns (verdicts: seq<bool>)
    requires probe.Valid() && probe.cache == None && |responses| >= 1
    modifies probe
    ensures probe.Valid() && probe.requests <= 1
    ensures |verdicts| == |responses|
    ensures forall i :: 0 <= i < |verdicts| ==> verdicts[i] == verdicts[0]
    ensures probe.cache == Some(verdicts[0])
  {
    var first, _ := probe.TestConnection(responses[0]);
    verdicts := [first];
    for i := 1 to |responses|
      invariant probe.Valid() && probe.cache == Some(first)
      invariant |verdicts| == i && forall j :: 0 <= j < i ==> verdicts[j] == first
    {
      var ok, _ := probe.TestConnection(responses[i]);
      verdicts := verdicts + [ok];
    }
  }
}

=== FILE: generate_cover.dfy ===
/**
 * The cover generator: derive a cover id and its helper entity names from a
 * display name, fill the placeholders of the cover template in a fixed
 * order, and validate the command-line arguments. Reading the template,
 * validating the YAML and writing the output are parameters.
 */
module GenerateCover {
  import opened Wrappers
  import opened JsString
  import opened JsReplace
  import opened JsNumber

  // ---------------------------------------------------------------------------
  // Cover id

  /**
   * `s.replace(/\s+/g, '_')`: every maximal run of whitespace becomes one
   * `_`. The result holds no whitespace.
   */
  function Collapse(s: string): (r: string)
    ensures NoSpace(r)
    decreases |s|
  {
    if s == [] then []
    else if IsSpace(s[0]) then "_" + Collapse(TrimStart(s[1..]))
    else [s[0]] + Collapse(s[1..])
  }

  /** `name.toLowerCase().replace(/\s+/g, '_')` */
  function CoverId(name: string): (id: string)
    ensures NoSpace(id)
  {
    Collapse(ToLower(name))
  }

  predicate NoUpper(s: string) {
    forall i :: 0 <= i < |s| ==> !('A' <= s[i] <= 'Z')
  }

  /** Text without whitespace is left as it is. */
  lemma {:induction false} CollapseOfNoSpace(s: string)
    requires NoSpace(s)
    ensures Collapse(s) == s
  {
    if s != [] {
      CollapseOfNoSpace(s[1..]);
      assert [s[0]] + s[1..] == s;
    }
  }

  /**
   * A word, then a maximal run of whitespace, then text starting with a
   * non-space: the run becomes a single `_` and the rest is collapsed on
   * its own.
   */
  lemma {:induction false} CollapseRun(word: string, run: string, rest: string)
    requires NoSpace(word) && run != [] && AllSpace(run)
    requires rest == [] || !IsSpace(rest[0])
    ensures Collapse(word + run + rest) == word + "_" + Collapse(rest)
  {
    var s := word + run + rest;
    if word == [] {
      assert s == run + rest;
      assert s[1..] == run[1..] + rest;
      TrimStartOfParts(run[1..], rest);
    } else {
      assert s[1..] == word[1..] + run + rest;
      CollapseRun(word[1..], run, rest);
      assert [word[0]] + word[1..] == word;
    }
  }

  /** Collapsing adds no upper-case letter. */
  lemma {:induction false} CollapseKeepsLower(s: string)
    requires NoUpper(s)
    ensures NoUpper(Collapse(s))
    decreases |s|
  {
    if s != [] {
      if IsSpace(s[0]) {
        TrimStartSpec(s[1..]);
        var t := TrimStart(s[1..]);
        assert t == s[1..][|s[1..]| - |t|..];
        CollapseKeepsLower(t);
      } else {
        CollapseKeepsLower(s[1..]);
      }
    }
  }

  lemma {:induction false} ToLowerOfLower(s: string)
    requires NoUpper(s)
    ensures ToLower(s) == s
  {
    if s != [] {
      ToLowerOfLower(s[1..]);
      assert [s[0]] + s[1..] == s;
    }
  }

  /** The id of an id is itself: applying the rule again changes nothing. */
  lemma CoverIdIdempotent(name: string)
    ensures NoUpper(CoverId(name))
    ensures CoverId(CoverId(name)) == CoverId(name)
  {
    var id := CoverId(name);
    ToLowerSpec(name);
    CollapseKeepsLower(ToLower(name));
    ToLowerOfLower(id);
    CollapseOfNoSpace(id);
  }

  /** The example of the usage message: "Living Room Blind" has the id `living_room_blind`. */
  lemma LivingRoomBlindId()
    ensures CoverId("Living Room Blind") == "living_room_blind"
  {
    LivingRoomBlindLower();
    LivingRoomBlindCollapse();
  }

  lemma LivingRoomBlindCollapse()
    ensures Collapse("living room blind") == "living_room_blind"
  {
    var w1, w2, w3 := "living", "room", "blind";
    assert NoSpace(w1) && NoSpace(w2) && NoSpace(w3);
    assert Collapse(w1 + " " + w2 + " " + w3) == w1 + "_" + w2 + "_" + w3 by {
      CollapseThree(w1, w2, w3);
    }
    assert w1 + " " + w2 + " " + w3 == "living room blind";
    assert w1 + "_" + w2 + "_" + w3 == "living_room_blind";
  }

  lemma LivingRoomBlindLower()
    ensures ToLower("Living Room Blind") == "living room blind"
  {
    assert ToLower("Living " + "Room " + "Blind") == "living " + "room " + "blind" by {
      assert ToLower("Living ") == "living ";
      assert ToLower("Room ") == "room ";
      assert ToLower("Blind") == "blind";
      LowerThree("Living ", "Room ", "Blind", "living ", "room ", "blind");
    }
    assert "Living " + "Room " + "Blind" == "Living Room Blind";
    assert "living " + "room " + "blind" == "living room blind";
  }

  lemma LowerThree(a: string, b: string, c: string, la: string, lb: string, lc: string)
    requires ToLower(a) == la && ToLower(b) == lb && ToLower(c) == lc
    ensures ToLower(a + b + c) == la + lb + lc
  {
    ToLowerAppend(a, b);
    ToLowerAppend(a + b, c);
  }

  /** Three words separated by single spaces become the words joined by `_`. */
  lemma CollapseThree(w1: string, w2: string, w3: string)
    requires NoSpace(w1) && NoSpace(w2) && NoSpace(w3) && w2 != [] && w3 != []
    ensures Collapse(w1 + " " + w2 + " " + w3) == w1 + "_" + w2 + "_" + w3
  {
    CollapseOfNoSpace(w3);
    CollapseRun(w2, " ", w3);
    CollapseRun(w1, " ", w2 + " " + w3);
    assert w1 + " " + w2 + " " + w3 == w1 + " " + (w2 + " " + w3);
  }

  // ---------------------------------------------------------------------------
  // Helper entities

  /** `input_text.<id>_position`: the entity that holds the cover's position. */
  function PositionHelper(id: string): string {
    "input_text." + id + "_position"
  }

  /** `input_text.<id>_direction`: the entity that holds the cover's direction. */
  function DirectionHelper(id: string): string {
    "input_text." + id + "_direction"
  }

  /** `<id>_position`: the object id of the position helper. */
  function InputPositionHelperName(id: string): string {
    id + "_position"
  }

  /** `<id>_direction`: the object id of the direction helper. */
  function InputDirectionHelperName(id: string): string {
    id + "_direction"
  }

  /**
   * Each helper entity is the `input_text` entity of its object id, the two
   * helpers of a cover are distinct, and no name holds whitespace.
   */
  lemma HelperNames(name: string)
    ensures var id := CoverId(name);
      && PositionHelper(id) == "input_text." + InputPositionHelperName(id)
      && DirectionHelper(id) == "input_text." + InputDirectionHelperName(id)
      && PositionHelper(id) != DirectionHelper(id)
      && NoSpace(PositionHelper(id)) && NoSpace(DirectionHelper(id))
      && NoSpace(InputPositionHelperName(id)) && NoSpace(InputDirectionHelperName(id))
  {
    var id := CoverId(name);
    assert PositionHelper(id)[11 + |id| + 1] == 'p';
    assert DirectionHelper(id)[11 + |id| + 1] == 'd';
    assert NoSpace(InputPositionHelperName(id)) by {
      assert NoSpace("_position");
      NoSpaceConcat(id, "_position");
    }
    assert NoSpace(InputDirectionHelperName(id)) by {
      assert NoSpace("_direction");
      NoSpaceConcat(id, "_direction");
    }
    assert NoSpace("input_text.");
    NoSpaceConcat("input_text.", InputPositionHelperName(id));
    NoSpaceConcat("input_text.", InputDirectionHelperName(id));
  }

  /** Text without whitespace, concatenated, holds no whitespace. */
  lemma NoSpaceConcat(a: string, b: string)
    requires NoSpace(a) && NoSpace(b)
    ensures NoSpace(a + b)
  {
    forall i | 0 <= i < |a + b|
      ensures !IsSpace((a + b)[i])
    {
      if i < |a| {
        assert (a + b)[i] == a[i];
      } else {
        assert (a + b)[i] == b[i - |a|];
      }
    }
  }

  // ---------------------------------------------------------------------------
  // The substitution chain

  /** The placeholders of the cover template. */
  datatype Placeholder =
    | CoverIdTag | NameTag | SwitchEntityTag | TravelTimeTag
    | PositionHelperTag | DirectionHelperTag | InputPositionHelperNameTag | InputDirectionHelperNameTag

  /**
   * How a placeholder is written in the template. Each opens with `{`, and
   * only `{{ name }}` is as short as ten characters.
   */
  function Text(p: Placeholder): (t: string)
    ensures |t| >= 10 && t[0] == '{'
    ensures p != NameTag ==> |t| > 10
  {
    match p
    case CoverIdTag => "{{ cover_id }}"
    case NameTag => "{{ name }}"
    case SwitchEntityTag => "{{ switch_entity }}"
    case TravelTimeTag => "{{ travel_time }}"
    case PositionHelperTag => "{{ position_helper }}"
    case DirectionHelperTag => "{{ direction_helper }}"
    case InputPositionHelperNameTag => "{{ input_position_helper_name }}"
    case InputDirectionHelperNameTag => "{{ input_direction_helper_name }}"
  }

  /** The order in which the placeholders are filled. */
  const Order: seq<Placeholder> := [
    CoverIdTag, NameTag, SwitchEntityTag, TravelTimeTag,
    PositionHelperTag, DirectionHelperTag, InputPositionHelperNameTag, InputDirectionHelperNameTag]

  /** The command-line arguments, with the travel time already parsed. */
  datatype Arguments = Arguments(name: string, switchEntity: string, travelTime: int)

  /**
   * What fills each placeholder. The travel time is printed so that
   * `parseInt` reads it back, and the derived names hold no whitespace.
   */
  function Value(p: Placeholder, args: Arguments): (v: string)
    ensures p == TravelTimeTag ==> ParseInt(v) == Some(args.travelTime)
    ensures p !in {NameTag, SwitchEntityTag, TravelTimeTag} ==> NoSpace(v)
  {
    ParseIntOfIntToString(args.travelTime);
    HelperNames(args.name);
    var id := CoverId(args.name);
    match p
    case CoverIdTag => id
    case NameTag => args.name
    case SwitchEntityTag => args.switchEntity
    case TravelTimeTag => IntToString(args.travelTime)
    case PositionHelperTag => PositionHelper(id)
    case DirectionHelperTag => DirectionHelper(id)
    case InputPositionHelperNameTag => InputPositionHelperName(id)
    case InputDirectionHelperNameTag => InputDirectionHelperName(id)
  }

  /**
   * `s.replace(/{{ p1 }}/g, v1).replace(/{{ p2 }}/g, v2)...` for the
   * placeholders `tags` in order; each value is a replacement template.
   */
  function Fill(s: string, tags: seq<Placeholder>, args: Arguments): string
    decreases |tags|
  {
    if tags == [] then s
    else Fill(ReplaceAll(s, Text(tags[0]), Value(tags[0], args)), tags[1..], args)
  }

  /** The filled template of `generateCoverConfig`, before it is validated. */
  function GenerateCoverConfig(template: string, name: string, switchEntity: string, travelTime: int): string
  {
    Fill(template, Order, Arguments(name, switchEntity, travelTime))
  }

  /** `c` is not in `s` but is in `p`: `p` cannot occur in `s`. */
  lemma {:induction false} AbsentCharBlocksOccurrence(s: string, p: string, c: char)
    requires c in p && c !in s
    ensures !Occurs(s, p)
    decreases |s|
  {
    if s != [] {
      var i :| 0 <= i < |p| && p[i] == c;
      if |p| <= |s| {
        assert s[i] in s;
        assert s[..|p|][i] != p[i];
      }
      AbsentCharBlocksOccurrence(s[1..], p, c);
    }
  }

  /** No placeholder occurs in text without `{`. */
  lemma NoPlaceholderWithoutBrace(s: string, p: Placeholder)
    requires '{' !in s
    ensures !Occurs(s, Text(p))
  {
    assert Text(p)[0] in Text(p);
    AbsentCharBlocksOccurrence(s, Text(p), '{');
  }

  /** Text without `{` passes the chain unchanged. */
  lemma {:induction false} FillWithoutBrace(s: string, tags: seq<Placeholder>, args: Arguments)
    requires '{' !in s
    ensures Fill(s, tags, args) == s
    decreases |tags|
  {
    if tags != [] {
      NoPlaceholderWithoutBrace(s, tags[0]);
      ReplaceAllAbsent(s, Text(tags[0]), Value(tags[0], args));
      FillWithoutBrace(s, tags[1..], args);
    }
  }

  /**
   * A template without `{` is written out as it is, whatever the
   * arguments: the text outside the placeholders is never changed.
   */
  lemma TemplateWithoutPlaceholders(template: string, name: string, switchEntity: string, travelTime: int)
    requires '{' !in template
    ensures GenerateCoverConfig(template, name, switchEntity, travelTime) == template
  {
    FillWithoutBrace(template, Order, Arguments(name, switchEntity, travelTime));
  }

  /** Text of at most ten characters passes every step but the `{{ name }}` one unchanged. */
  lemma {:induction false} FillShort(s: string, tags: seq<Placeholder>, args: Arguments)
    requires |s| <= 10 && NameTag !in tags
    ensures Fill(s, tags, args) == s
    decreases |tags|
  {
    if tags != [] {
      assert tags[0] != NameTag;
      ShortHasNoOccurrence(s, Text(tags[0]));
      ReplaceAllAbsent(s, Text(tags[0]), Value(tags[0], args));
      FillShort(s, tags[1..], args);
    }
  }

  /** Two steps of the chain at once. */
  lemma FillTwoSteps(s: string, tags: seq<Placeholder>, args: Arguments)
    requires |tags| >= 2
    ensures Fill(s, tags, args)
      == Fill(ReplaceAll(ReplaceAll(s, Text(tags[0]), Value(tags[0], args)), Text(tags[1]), Value(tags[1], args)), tags[2..], args)
  {
    assert tags[1..][1..] == tags[2..];
  }

  /**
   * A template that is just `{{ cover_id }}` becomes the cover id, when the
   * id holds neither `$` nor `{`: no later step touches it.
   */
  lemma CoverIdPlaceholder(name: string, switchEntity: string, travelTime: int)
    requires '$' !in CoverId(name) && '{' !in CoverId(name)
    ensures GenerateCoverConfig("{{ cover_id }}", name, switchEntity, travelTime) == CoverId(name)
  {
    var args := Arguments(name, switchEntity, travelTime);
    var id := CoverId(name);
    var s := Text(CoverIdTag);
    ReplaceAllWhole(s, id);
    SubstitutionOfPlain(id, s, [], []);
    FillWithoutBrace(id, Order[1..], args);
  }

  /**
   * As written, the values are replacement templates: a name containing
   * `$&` puts the matched placeholder back instead of the name.
   */
  lemma DollarInNameReinsertsPlaceholder(switchEntity: string, travelTime: int)
    ensures GenerateCoverConfig("{{ name }}", "$&", switchEntity, travelTime) == "{{ name }}"
  {
    var args := Arguments("$&", switchEntity, travelTime);
    var s := Text(NameTag);
    assert ReplaceAll(s, Text(CoverIdTag), Value(CoverIdTag, args)) == s by {
      ShortHasNoOccurrence(s, Text(CoverIdTag));
      ReplaceAllAbsent(s, Text(CoverIdTag), Value(CoverIdTag, args));
    }
    assert ReplaceAll(s, s, "$&") == s by {
      ReplaceAllWhole(s, "$&");
    }
    FillShort(s, Order[2..], args);
    FillTwoSteps(s, Order, args);
  }

  // ---------------------------------------------------------------------------
  // The chain with literal values

  /** `s.replaceAll('{{ p1 }}', () => v1)...`: every value inserted as it is. */
  function FillLiteral(s: string, tags: seq<Placeholder>, args: Arguments): string
    decreases |tags|
  {
    if tags == [] then s
    else FillLiteral(ReplaceAllLiteral(s, Text(tags[0]), Value(tags[0], args)), tags[1..], args)
  }

  /** The filled template with every value inserted verbatim. */
  function GenerateCoverConfigLiteral(template: string, name: string, switchEntity: string, travelTime: int): string
  {
    FillLiteral(template, Order, Arguments(name, switchEntity, travelTime))
  }

  lemma {:induction false} FillLiteralWithoutBrace(s: string, tags: seq<Placeholder>, args: Arguments)
    requires '{' !in s
    ensures FillLiteral(s, tags, args) == s
    decreases |tags|
  {
    if tags != [] {
      NoPlaceholderWithoutBrace(s, tags[0]);
      SplitOnAbsent(s, Text(tags[0]));
      FillLiteralWithoutBrace(s, tags[1..], args);
    }
  }

  /**
   * With literal insertion, the `{{ name }}` placeholder becomes the name,
   * character for character, for every name without `{`, `$` included.
   */
  lemma LiteralNameIsVerbatim(name: string, switchEntity: string, travelTime: int)
    requires '{' !in name
    ensures GenerateCoverConfigLiteral("{{ name }}", name, switchEntity, travelTime) == name
  {
    var args := Arguments(name, switchEntity, travelTime);
    var s := Text(NameTag);
    var t1 := ReplaceAllLiteral(s, Text(CoverIdTag), Value(CoverIdTag, args));
    assert t1 == s by {
      ShortHasNoOccurrence(s, Text(CoverIdTag));
      SplitOnAbsent(s, Text(CoverIdTag));
    }
    var t2 := ReplaceAllLiteral(t1, s, name);
    assert t2 == name by {
      SplitOnSelf(s);
      var pieces := SplitOn(s, s);
      assert pieces[1..] == [[]];
      assert Join(pieces, name) == [] + name + [];
    }
    FillLiteralWithoutBrace(name, Order[2..], args);
    assert Order[1..][1..] == Order[2..];
  }

  // ---------------------------------------------------------------------------
  // main

  /** How a run ends. */
  datatype Outcome =
    | UsageError          // not exactly three arguments
    | NotANumber          // `parseInt(travel_time, 10)` is NaN
    | TemplateUnreadable  // reading the template threw
    | InvalidYaml         // the filled template does not parse
    | WriteFailed         // creating `dist` or writing the output threw
    | Written(config: string)

  /** The process exit status of each outcome. */
  function ExitCode(outcome: Outcome): (code: int)
    ensures code == 0 <==> outcome.Written?
  {
    if outcome.Written? then 0 else 1
  }

  /**
   * `main()` with `args` the arguments after the script name, `template` the
   * template file (`None` where it cannot be read), `validYaml` the YAML
   * check and `writeOk` whether the output could be written.
   */
  function Run(args: seq<string>, template: Option<string>, validYaml: string -> bool, writeOk: bool): (outcome: Outcome)
    ensures |args| != 3 ==> outcome == UsageError
    ensures |args| == 3 ==> (outcome == NotANumber <==> ParseInt(args[2]).None?)
    ensures outcome.Written? <==>
      && |args| == 3 && ParseInt(args[2]).Some? && template.Some?
      && validYaml(GenerateCoverConfig(template.value, args[0], args[1], ParseInt(args[2]).value)) && writeOk
    ensures outcome.Written? ==>
      outcome.config == GenerateCoverConfig(template.value, args[0], args[1], ParseInt(args[2]).value)
  {
    if |args| != 3 then UsageError
    else
      var travelTime := ParseInt(args[2]);
      if travelTime.None? then NotANumber
      else if template.None? then TemplateUnreadable
      else
        var config := GenerateCoverConfig(template.value, args[0], args[1], travelTime.value);
        if !validYaml(config) then InvalidYaml
        else if !writeOk then WriteFailed
        else Written(config)
  }

  /** A travel time of "30s" is accepted as 30; "abc" is rejected with status 1. */
  lemma TravelTimeExamples(template: string, validYaml: string -> bool)
    requires validYaml(GenerateCoverConfig(template, "Living Room Blind", "switch.living_room_blind", 30))
    ensures Run(["Living Room Blind", "switch.living_room_blind", "30s"], Some(template), validYaml, true)
      == Written(GenerateCoverConfig(template, "Living Room Blind", "switch.living_room_blind", 30))
    ensures ExitCode(Run(["Living Room Blind", "switch.living_room_blind", "abc"], Some(template), validYaml, true)) == 1
  {
    ParseIntWithUnit();
    ParseIntOfLetters();
  }
}

=== FILE: install_blueprints.dfy ===
/**
 * The install-link script: scan the blueprint directories of four domains
 * and print, for each marked blueprint, a Home Assistant import link to its
 * raw file on GitHub. Directory listings, file reads and the YAML parser are
 * parameters; what the script prints is returned as a map of listings.
 */
module InstallBlueprints {
  import opened Wrappers
  import opened JsString
  import opened BlueprintFiles
  import UriComponent
  import ConnectionTest

  /** The domains scanned, in order. */
  const Domains: seq<string> := ["automations", "scripts", "scenes", "dashboards"]

  /** Where a blueprint's raw file is published, up to its `domain/file` path. */
  const RawPrefix: string := "https://raw.githubusercontent.com/chatondearu/mirabelle-ha-blueprints/main/blueprints/"

  /** `HA_URL` when the variable is unset or empty. */
  const DefaultUrl: string := "http://supervisor/core"

  /** The Home Assistant path that imports a blueprint from the URL in its query. */
  const ImportPath: string := "/blueprint/import?url="

  /** `process.env.HA_URL || 'http://supervisor/core'` */
  function HaUrl(env: Option<string>): (url: string)
    ensures url != []
  {
    if env.Some? && env.value != [] then env.value else DefaultUrl
  }

  /** The dictionary key of a file: `${domain}/${file}`. */
  function Key(domain: string, file: string): string {
    domain + "/" + file
  }

  /** The displayed type of an entry: `path.split('/')[0]`. */
  function TypeLabel(path: string): string {
    Split(path, '/')[0]
  }

  /** The blueprint that `file` in the directory of `domain` yields, read through `read`. */
  function Loaded(domain: string, file: string, read: (string, string) -> Option<string>,
                  parse: string -> Option<Blueprint>): Option<Blueprint>
  {
    Load(file, read(domain, file), parse)
  }

  predicate AllManaged(blueprints: map<string, Blueprint>) {
    forall k :: k in blueprints ==> IsManaged(blueprints[k])
  }

  /** The inner loop: the blueprints of `files` in `domain`, added to `acc` in order. */
  function AddFiles(acc: map<string, Blueprint>, domain: string, files: seq<string>,
                    read: (string, string) -> Option<string>, parse: string -> Option<Blueprint>): (r: map<string, Blueprint>)
    ensures AllManaged(acc) ==> AllManaged(r)
  {
    if files == [] then acc
    else
      var earlier := AddFiles(acc, domain, files[..|files| - 1], read, parse);
      var file := files[|files| - 1];
      var bp := Loaded(domain, file, read, parse);
      if bp.Some? then earlier[Key(domain, file) := bp.value] else earlier
  }

  /**
   * The outer loop: the blueprints of each of `domains` added to `acc` in
   * order; a domain whose directory cannot be listed (`listDir` is `None`)
   * adds nothing.
   */
  function AddDomains(acc: map<string, Blueprint>, domains: seq<string>, listDir: string -> Option<seq<string>>,
                      read: (string, string) -> Option<string>, parse: string -> Option<Blueprint>): (r: map<string, Blueprint>)
    ensures AllManaged(acc) ==> AllManaged(r)
  {
    if domains == [] then acc
    else
      var earlier := AddDomains(acc, domains[..|domains| - 1], listDir, read, parse);
      var domain := domains[|domains| - 1];
      var listing := listDir(domain);
      if listing.None? then earlier else AddFiles(earlier, domain, listing.value, read, parse)
  }

  /** What `getBlueprints()` returns: every entry is a marked blueprint. */
  function CollectAll(listDir: string -> Option<seq<string>>, read: (string, string) -> Option<string>,
                      parse: string -> Option<Blueprint>): (blueprints: map<string, Blueprint>)
    ensures AllManaged(blueprints)
  {
    AddDomains(map[], Domains, listDir, read, parse)
  }

  /** `getBlueprints()` */
  method GetBlueprints(listDir: string -> Option<seq<string>>, read: (string, string) -> Option<string>,
                       parse: string -> Option<Blueprint>)
    returns (blueprints: map<string, Blueprint>)
    ensures blueprints == CollectAll(listDir, read, parse)
  {
    blueprints := map[];
    var domains := Domains;
    for di := 0 to |domains|
      invariant blueprints == AddDomains(map[], domains[..di], listDir, read, parse)
    {
      var domain := domains[di];
      var listing := listDir(domain);
      if listing.Some? {
        var files := listing.value;
        ghost var before := blueprints;
        for fi := 0 to |files|
          invariant blueprints == AddFiles(before, domain, files[..fi], read, parse)
        {
          var file := files[fi];
          if EndsWith(file, ".yaml") {
            var content := read(domain, file);
            if content.Some? {
              var parsed := parse(content.value);
              if parsed.Some? && IsManaged(parsed.value) {
                blueprints := blueprints[Key(domain, file) := parsed.value];
              }
            }
          }
          assert files[..fi + 1][..fi] == files[..fi];
        }
        assert files[..|files|] == files;
      }
      assert domains[..di + 1][..di] == domains[..di];
    }
    assert domains[..|domains|] == domains;
  }

  // ---------------------------------------------------------------------------
  // Keys

  /** The type label of a key is its domain, because a domain holds no `/`. */
  lemma {:induction false} TypeLabelOfKey(domain: string, file: string)
    requires '/' !in domain
    ensures TypeLabel(Key(domain, file)) == domain
  {
    assert Key(domain, file) == domain + ['/'] + file;
    SplitAfterHead(domain, file, '/');
  }

  /** Distinct (domain, file) pairs have distinct keys, so no entry overwrites another's. */
  lemma KeyInjective(d1: string, f1: string, d2: string, f2: string)
    requires '/' !in d1 && '/' !in d2
    requires Key(d1, f1) == Key(d2, f2)
    ensures d1 == d2 && f1 == f2
  {
    TypeLabelOfKey(d1, f1);
    TypeLabelOfKey(d2, f2);
    assert f1 == Key(d1, f1)[|d1| + 1..];
  }

  lemma DomainsWellFormed()
    ensures forall i :: 0 <= i < |Domains| ==> '/' !in Domains[i]
    ensures forall i, j :: 0 <= i < j < |Domains| ==> Domains[i] != Domains[j]
  {
  }

  // ---------------------------------------------------------------------------
  // What the scan finds

  /** The inner loop only writes keys of its own domain. */
  lemma {:induction false} AddFilesFrame(acc: map<string, Blueprint>, domain: string, files: seq<string>,
                                         read: (string, string) -> Option<string>, parse: string -> Option<Blueprint>, k: string)
    requires '/' !in domain && TypeLabel(k) != domain
    ensures var r := AddFiles(acc, domain, files, read, parse);
      (k in r <==> k in acc) && (k in acc ==> r[k] == acc[k])
  {
    if files != [] {
      AddFilesFrame(acc, domain, files[..|files| - 1], read, parse, k);
      TypeLabelOfKey(domain, files[|files| - 1]);
    }
  }

  /** A file of the domain that yields a blueprint is stored under its key. */
  lemma {:induction false} AddFilesFinds(acc: map<string, Blueprint>, domain: string, files: seq<string>,
                                         read: (string, string) -> Option<string>, parse: string -> Option<Blueprint>, i: nat)
    requires i < |files| && Loaded(domain, files[i], read, parse).Some?
    ensures var r := AddFiles(acc, domain, files, read, parse);
      Key(domain, files[i]) in r && r[Key(domain, files[i])] == Loaded(domain, files[i], read, parse).value
  {
    var n := |files| - 1;
    if i < n {
      AddFilesFinds(acc, domain, files[..n], read, parse, i);
      if files[n] != files[i] {
        assert Key(domain, files[n])[|domain| + 1..] == files[n];
        assert Key(domain, files[i])[|domain| + 1..] == files[i];
      }
    }
  }

  /** Every key the inner loop adds is the key of a listed file that yields the stored blueprint. */
  lemma {:induction false} AddFilesOnly(acc: map<string, Blueprint>, domain: string, files: seq<string>,
                                        read: (string, string) -> Option<string>, parse: string -> Option<Blueprint>, k: string)
    requires k in AddFiles(acc, domain, files, read, parse)
    ensures var r := AddFiles(acc, domain, files, read, parse);
      (k in acc && r[k] == acc[k])
      || exists i :: 0 <= i < |files| && k == Key(domain, files[i]) && Loaded(domain, files[i], read, parse) == Some(r[k])
  {
    if files != [] {
      var n := |files| - 1;
      var r := AddFiles(acc, domain, files, read, parse);
      var bp := Loaded(domain, files[n], read, parse);
      if bp.Some? && k == Key(domain, files[n]) {
        assert Loaded(domain, files[n], read, parse) == Some(r[k]);
      } else {
        AddFilesOnly(acc, domain, files[..n], read, parse, k);
        if !(k in acc && r[k] == acc[k]) {
          var i :| 0 <= i < n && k == Key(domain, files[..n][i])
            && Loaded(domain, files[..n][i], read, parse) == Some(AddFiles(acc, domain, files[..n], read, parse)[k]);
          assert files[..n][i] == files[i];
        }
      }
    }
  }

  predicate Listed(listDir: string -> Option<seq<string>>, domain: string, file: string) {
    listDir(domain).Some? && file in listDir(domain).value
  }

  /** The outer loop only writes keys of the domains it scans. */
  lemma {:induction false} AddDomainsFrame(acc: map<string, Blueprint>, domains: seq<string>, listDir: string -> Option<seq<string>>,
                                           read: (string, string) -> Option<string>, parse: string -> Option<Blueprint>, k: string)
    requires forall i :: 0 <= i < |domains| ==> '/' !in domains[i] && TypeLabel(k) != domains[i]
    ensures var r := AddDomains(acc, domains, listDir, read, parse);
      (k in r <==> k in acc) && (k in acc ==> r[k] == acc[k])
  {
    if domains != [] {
      var n := |domains| - 1;
      AddDomainsFrame(acc, domains[..n], listDir, read, parse, k);
      if listDir(domains[n]).Some? {
        AddFilesFrame(AddDomains(acc, domains[..n], listDir, read, parse), domains[n], listDir(domains[n]).value, read, parse, k);
      }
    }
  }

  /** A listed file of a scanned domain that yields a blueprint is stored under its key, with that blueprint. */
  lemma {:induction false} AddDomainsFinds(acc: map<string, Blueprint>, domains: seq<string>, listDir: string -> Option<seq<string>>,
                                           read: (string, string) -> Option<string>, parse: string -> Option<Blueprint>,
                                           d: nat, file: string)
    requires forall i :: 0 <= i < |domains| ==> '/' !in domains[i]
    requires forall i, j :: 0 <= i < j < |domains| ==> domains[i] != domains[j]
    requires d < |domains| && Listed(listDir, domains[d], file) && Loaded(domains[d], file, read, parse).Some?
    ensures var r := AddDomains(acc, domains, listDir, read, parse);
      Key(domains[d], file) in r && r[Key(domains[d], file)] == Loaded(domains[d], file, read, parse).value
  {
    var n := |domains| - 1;
    var k := Key(domains[d], file);
    var earlier := AddDomains(acc, domains[..n], listDir, read, parse);
    var files := listDir(domains[d]).value;
    if d == n {
      var i :| 0 <= i < |files| && files[i] == file;
      AddFilesFinds(earlier, domains[n], files, read, parse, i);
    } else {
      AddDomainsFinds(acc, domains[..n], listDir, read, parse, d, file);
      TypeLabelOfKey(domains[d], file);
      if listDir(domains[n]).Some? {
        AddFilesFrame(earlier, domains[n], listDir(domains[n]).value, read, parse, k);
      }
    }
  }

  /** Every key the outer loop adds is the key of a listed file of a scanned domain that yields the stored blueprint. */
  lemma {:induction false} AddDomainsOnly(acc: map<string, Blueprint>, domains: seq<string>, listDir: string -> Option<seq<string>>,
                                          read: (string, string) -> Option<string>, parse: string -> Option<Blueprint>, k: string)
    requires k in AddDomains(acc, domains, listDir, read, parse)
    ensures var r := AddDomains(acc, domains, listDir, read, parse);
      (k in acc && r[k] == acc[k])
      || exists d, f :: d in domains && Listed(listDir, d, f) && k == Key(d, f) && Loaded(d, f, read, parse) == Some(r[k])
  {
    if domains != [] {
      var n := |domains| - 1;
      var r := AddDomains(acc, domains, listDir, read, parse);
      var earlier := AddDomains(acc, domains[..n], listDir, read, parse);
      var domain := domains[n];
      if listDir(domain).Some? {
        var files := listDir(domain).value;
        AddFilesOnly(earlier, domain, files, read, parse, k);
        if !(k in earlier && r[k] == earlier[k]) {
          var i :| 0 <= i < |files| && k == Key(domain, files[i]) && Loaded(domain, files[i], read, parse) == Some(r[k]);
          assert Listed(listDir, domain, files[i]);
          return;
        }
      }
      AddDomainsOnly(acc, domains[..n], listDir, read, parse, k);
      if !(k in acc && r[k] == acc[k]) {
        var d, f :| d in domains[..n] && Listed(listDir, d, f) && k == Key(d, f) && Loaded(d, f, read, parse) == Some(earlier[k]);
        assert d in domains;
      }
    }
  }

  /**
   * The scan finds every listed `.yaml` file of the four domains that reads,
   * parses and carries the marker, under `domain/file`; a failure elsewhere,
   * in another file or another domain's directory, does not affect it.
   */
  lemma CollectAllFinds(listDir: string -> Option<seq<string>>, read: (string, string) -> Option<string>,
                        parse: string -> Option<Blueprint>, domain: string, file: string)
    requires domain in Domains && Listed(listDir, domain, file) && Loaded(domain, file, read, parse).Some?
    ensures var r := CollectAll(listDir, read, parse);
      Key(domain, file) in r && r[Key(domain, file)] == Loaded(domain, file, read, parse).value
  {
    DomainsWellFormed();
    var d :| 0 <= d < |Domains| && Domains[d] == domain;
    AddDomainsFinds(map[], Domains, listDir, read, parse, d, file);
  }

  /**
   * The scan stores nothing else: each entry is the blueprint a listed file
   * of one of the four domains yields, under that file's key, and its type
   * label is that domain.
   */
  lemma CollectAllOnly(listDir: string -> Option<seq<string>>, read: (string, string) -> Option<string>,
                       parse: string -> Option<Blueprint>, k: string)
    requires k in CollectAll(listDir, read, parse)
    ensures exists d, f ::
      d in Domains && Listed(listDir, d, f) && k == Key(d, f) && Loaded(d, f, read, parse) == Some(CollectAll(listDir, read, parse)[k])
    ensures TypeLabel(k) in Domains && |TypeLabel(k)| < |k| && Listed(listDir, TypeLabel(k), k[|TypeLabel(k)| + 1..])
  {
    AddDomainsOnly(map[], Domains, listDir, read, parse, k);
    var d, f :| d in Domains && Listed(listDir, d, f) && k == Key(d, f) && Loaded(d, f, read, parse) == Some(CollectAll(listDir, read, parse)[k]);
    DomainsWellFormed();
    TypeLabelOfKey(d, f);
    assert k[|d| + 1..] == f;
  }

  /** A domain whose directory cannot be listed contributes no entry. */
  lemma UnreadableDomainSkipped(listDir: string -> Option<seq<string>>, read: (string, string) -> Option<string>,
                                parse: string -> Option<Blueprint>, domain: string, k: string)
    requires listDir(domain).None? && k in CollectAll(listDir, read, parse)
    ensures TypeLabel(k) != domain
  {
    CollectAllOnly(listDir, read, parse, k);
  }

  // ---------------------------------------------------------------------------
  // Install links

  /**
   * `generateInstallLink(path)`: the import page of `haUrl` with the raw
   * URL of `path` percent-encoded as its `url` parameter. The parameter
   * decodes back to the raw URL.
   */
  function InstallLink(haUrl: string, path: string): (link: string)
    ensures StartsWith(link, haUrl + ImportPath)
    ensures UriComponent.Decode(link[|haUrl + ImportPath|..]) == Some(RawPrefix + path)
  {
    var link := haUrl + ImportPath + UriComponent.Encode(RawPrefix + path);
    assert link[..|haUrl + ImportPath|] == haUrl + ImportPath;
    assert link[|haUrl + ImportPath|..] == UriComponent.Encode(RawPrefix + path);
    UriComponent.DecodeEncode(RawPrefix + path);
    link
  }

  /** The `url` parameter holds none of the delimiters `/ : ? & = # +`, so it cannot end the query early. */
  lemma InstallLinkQueryIsOneParameter(haUrl: string, path: string, c: char)
    requires c in InstallLink(haUrl, path)[|haUrl + ImportPath|..]
    ensures c != '/' && c != ':' && c != '?' && c != '&' && c != '=' && c != '#' && c != '+'
  {
    var link := haUrl + ImportPath + UriComponent.Encode(RawPrefix + path);
    assert link[|haUrl + ImportPath|..] == UriComponent.Encode(RawPrefix + path);
  }

  // ---------------------------------------------------------------------------
  // main

  /** What `main` prints for one entry. */
  datatype Listing = Listing(name: string, description: string, typeLabel: string, installLink: string)

  datatype Outcome = ConnectionFailed | NoBlueprints | Links(listings: map<string, Listing>)

  /** The process exit status of each outcome. */
  function ExitCode(outcome: Outcome): (code: int)
    ensures code == 1 <==> outcome.ConnectionFailed?
  {
    if outcome.ConnectionFailed? then 1 else 0
  }

  /** The listing of every entry, keyed by its path. */
  function Listings(haUrl: string, blueprints: map<string, Blueprint>): (listings: map<string, Listing>)
    ensures listings.Keys == blueprints.Keys
  {
    map path | path in blueprints ::
      Listing(blueprints[path].name.GetOr(""), blueprints[path].description, TypeLabel(path), InstallLink(haUrl, path))
  }

  /**
   * Each printed entry names a marked blueprint, shows the domain it was
   * found in as its type, and links to an import whose parameter decodes to
   * the raw URL of its path.
   */
  lemma ListingSpec(haUrl: string, listDir: string -> Option<seq<string>>, read: (string, string) -> Option<string>,
                    parse: string -> Option<Blueprint>, path: string)
    requires path in Listings(haUrl, CollectAll(listDir, read, parse))
    ensures var entry := Listings(haUrl, CollectAll(listDir, read, parse))[path];
      && StartsWith(entry.name, Marker)
      && entry.typeLabel in Domains && |entry.typeLabel| < |path|
      && Listed(listDir, entry.typeLabel, path[|entry.typeLabel| + 1..])
      && StartsWith(entry.installLink, haUrl + ImportPath)
      && UriComponent.Decode(entry.installLink[|haUrl + ImportPath|..]) == Some(RawPrefix + path)
  {
    CollectAllOnly(listDir, read, parse, path);
  }

  /**
   * `main()`: probe the connection first and stop with status 1 when it
   * fails; then scan, and stop with status 0 when nothing is found;
   * otherwise list every entry.
   */
  method Run(probe: ConnectionTest.Probe, response: ConnectionTest.AxiosResponse, haUrlEnv: Option<string>,
              listDir: string -> Option<seq<string>>, read: (string, string) -> Option<string>,
              parse: string -> Option<Blueprint>)
    returns (connected: bool, outcome: Outcome)
    requires probe.Valid()
    modifies probe
    ensures probe.Valid() && probe.cache == Some(connected)
    ensures old(probe.cache).Some? ==> connected == old(probe.cache).value
    ensures old(probe.cache).None? ==>
      connected == (probe.token.Some? && probe.token.value != [] && ConnectionTest.Verdict(response))
    ensures probe.requests ==
      old(probe.requests) + (if old(probe.cache).None? && probe.token.Some? && probe.token.value != [] then 1 else 0)
    ensures !connected ==> outcome == ConnectionFailed
    ensures connected && CollectAll(listDir, read, parse) == map[] ==> outcome == NoBlueprints
    ensures connected && CollectAll(listDir, read, parse) != map[] ==>
      outcome == Links(Listings(HaUrl(haUrlEnv), CollectAll(listDir, read, parse)))
  {
    var report;
    connected, report := probe.TestConnection(response);
    if !connected {
      return connected, ConnectionFailed;
    }
    var blueprints := GetBlueprints(listDir, read, parse);
    if blueprints == map[] {
      return connected, NoBlueprints;
    }
    outcome := Links(Listings(HaUrl(haUrlEnv), blueprints));
  }
}

=== FILE: js_number.dfy ===
/**
 * `parseInt(s, 10)` (section 19.2.5 of ECMA-262) and `Number.prototype.toString()`
 * for integral values. NaN is `None`; numbers are exact integers.
 */
module JsNumber {
  import opened Wrappers
  import opened JsString

  predicate IsDigit(c: char) {
    '0' <= c <= '9'
  }

  predicate AllDigits(s: string) {
    forall i :: 0 <= i < |s| ==> IsDigit(s[i])
  }

  function DigitValue(c: char): (d: nat)
    requires IsDigit(c)
    ensures d < 10
  {
    c as int - '0' as int
  }

  function DigitChar(d: nat): (c: char)
    requires d < 10
    ensures IsDigit(c) && DigitValue(c) == d
  {
    ('0' as int + d) as char
  }

  /** The longest prefix of decimal digits. */
  function LeadingDigits(s: string): (z: string)
    ensures |z| <= |s| && z == s[..|z|] && AllDigits(z)
    ensures |z| < |s| ==> !IsDigit(s[|z|])
  {
    if s != [] && IsDigit(s[0]) then [s[0]] + LeadingDigits(s[1..]) else []
  }

  /** The value of a string of decimal digits, most significant first. */
  function DigitsValue(z: string): nat
    requires AllDigits(z)
  {
    if z == [] then 0 else DigitsValue(z[..|z| - 1]) * 10 + DigitValue(z[|z| - 1])
  }

  /** The string after one leading sign character, if there is one. */
  function DropSign(t: string): string {
    if t != [] && (t[0] == '-' || t[0] == '+') then t[1..] else t
  }

  /**
   * `parseInt(s, 10)`: skip leading whitespace, take one optional sign, then
   * the longest run of decimal digits; NaN (`None`) when that run is empty.
   * Anything after the digits is ignored.
   */
  function ParseInt(s: string): Option<int>
  {
    var t := TrimStart(s);
    var z := LeadingDigits(DropSign(t));
    if z == [] then None else Some(Signed(t, DigitsValue(z)))
  }

  /** The magnitude with the sign `t` starts with applied. */
  function Signed(t: string, magnitude: nat): int {
    if t != [] && t[0] == '-' then -(magnitude as int) else magnitude
  }

  /** Decimal digits of a natural number, without leading zeros. */
  function NatToString(n: nat): (r: string)
    ensures r != [] && AllDigits(r)
  {
    if n < 10 then [DigitChar(n)] else NatToString(n / 10) + [DigitChar(n % 10)]
  }

  /** `n.toString()` for an integral number. */
  function IntToString(n: int): string {
    if n < 0 then "-" + NatToString(-n) else NatToString(n)
  }

  /** Reading the digits of `n` back gives `n`. */
  lemma {:induction false} DigitsValueOfNatToString(n: nat)
    ensures DigitsValue(NatToString(n)) == n
  {
    if n >= 10 {
      DigitsValueOfNatToString(n / 10);
      var r := NatToString(n);
      assert r[..|r| - 1] == NatToString(n / 10);
    }
  }

  /** A digit string followed by a non-digit (or nothing) is read up to its end. */
  lemma {:induction false} LeadingDigitsOfParts(z: string, rest: string)
    requires AllDigits(z)
    requires rest == [] || !IsDigit(rest[0])
    ensures LeadingDigits(z + rest) == z
  {
    if z != [] {
      assert (z + rest)[1..] == z[1..] + rest;
      LeadingDigitsOfParts(z[1..], rest);
      assert [z[0]] + z[1..] == z;
    }
  }

  /**
   * What `parseInt` accepts: whitespace, an optional sign, at least one
   * digit, then anything that does not start with a digit; the value is the
   * digits' value with the sign applied.
   */
  lemma {:induction false} ParseIntOfParts(ws: string, sign: string, z: string, rest: string)
    requires AllSpace(ws)
    requires |sign| <= 1 && (sign != [] ==> sign[0] == '+' || sign[0] == '-')
    requires z != [] && AllDigits(z)
    requires rest == [] || !IsDigit(rest[0])
    ensures ParseInt(ws + sign + z + rest) == Some(Signed(sign, DigitsValue(z)))
  {
    var s := ws + sign + z + rest;
    var t := sign + z + rest;
    assert TrimStart(s) == t by {
      assert s == ws + t;
      assert t[0] == if sign == [] then z[0] else sign[0];
      TrimStartOfParts(ws, t);
    }
    assert LeadingDigits(DropSign(t)) == z by {
      assert DropSign(t) == z + rest by {
        if sign != [] {
          assert t[1..] == z + rest;
        }
      }
      LeadingDigitsOfParts(z, rest);
    }
    assert Signed(t, DigitsValue(z)) == Signed(sign, DigitsValue(z));
    ParseIntOfDigits(s, z);
  }

  /** `parseInt` once its digits are known. */
  lemma ParseIntOfDigits(s: string, z: string)
    requires z != [] && LeadingDigits(DropSign(TrimStart(s))) == z
    ensures ParseInt(s) == Some(Signed(TrimStart(s), DigitsValue(z)))
  {
  }

  /**
   * `parseInt` is NaN exactly when, after the whitespace and one optional
   * sign, no digit follows.
   */
  lemma ParseIntNaN(s: string)
    ensures ParseInt(s).None? <==>
      var u := DropSign(TrimStart(s)); u == [] || !IsDigit(u[0])
  {
  }

  /** Printing an integer and parsing it back gives the integer. */
  lemma {:induction false} ParseIntOfIntToString(n: int)
    ensures ParseInt(IntToString(n)) == Some(n)
  {
    var m := if n < 0 then -n else n;
    DigitsValueOfNatToString(m);
    if n < 0 {
      ParseIntOfParts("", "-", NatToString(m), "");
      assert "" + "-" + NatToString(m) + "" == IntToString(n);
    } else {
      ParseIntOfParts("", "", NatToString(m), "");
      assert "" + "" + NatToString(m) + "" == IntToString(n);
    }
  }

  /** A travel time written as "30s" reads as 30. */
  lemma ParseIntWithUnit()
    ensures ParseInt("30s") == Some(30)
  {
    assert LeadingDigits(DropSign(TrimStart("30s"))) == "30" by {
      assert DropSign(TrimStart("30s")) == "30" + "s";
      LeadingDigitsOfParts("30", "s");
    }
    assert DigitsValue("30") == 30 by {
      assert "30"[..1] == "3";
      assert DigitsValue("3") == 3;
    }
    ParseIntOfDigits("30s", "30");
  }

  /** A travel time written as "abc" is NaN. */
  lemma ParseIntOfLetters()
    ensures ParseInt("abc") == None
  {
  }
}

=== FILE: js_replace.dfy ===
/**
 * `s.replace(/literal/g, replacement)`: global replacement of a non-empty
 * literal pattern by a replacement STRING, as `String.prototype.replace`
 * does it in ECMA-262. A replacement string is a template: the
 * `GetSubstitution` operation of ECMA-262 gives `$$`, `$&`,
 * `` $` `` and `$'` a meaning. The patterns here have no capture groups,
 * so `$1`..`$99` and `$<` stay literal.
 */
module JsReplace {
  import opened JsString

  /** `p` occurs somewhere in `s`. */
  predicate Occurs(s: string, p: string)
    decreases |s|
  {
    StartsWith(s, p) || (s != [] && Occurs(s[1..], p))
  }

  /**
   * GetSubstitution for a match without capture groups: `matched` is the
   * matched text, `before` the whole subject before the match and `after`
   * the whole subject after it.
   */
  function Substitution(template: string, matched: string, before: string, after: string): string
  {
    if template == [] then []
    else if template[0] == '$' && |template| >= 2 && template[1] == '$' then
      "$" + Substitution(template[2..], matched, before, after)
    else if template[0] == '$' && |template| >= 2 && template[1] == '&' then
      matched + Substitution(template[2..], matched, before, after)
    else if template[0] == '$' && |template| >= 2 && template[1] == '`' then
      before + Substitution(template[2..], matched, before, after)
    else if template[0] == '$' && |template| >= 2 && template[1] == '\'' then
      after + Substitution(template[2..], matched, before, after)
    else
      [template[0]] + Substitution(template[1..], matched, before, after)
  }

  /** A replacement without `$` is inserted literally. */
  lemma {:induction false} SubstitutionOfPlain(template: string, matched: string, before: string, after: string)
    requires '$' !in template
    ensures Substitution(template, matched, before, after) == template
  {
    if template != [] {
      assert template[0] in template;
      SubstitutionOfPlain(template[1..], matched, before, after);
      assert [template[0]] + template[1..] == template;
    }
  }

  /**
   * The global replacement, scanning the subject `s` from index `pos`:
   * leftmost, non-overlapping matches, each replaced by the substitution of
   * the template at that match.
   */
  function ReplaceFrom(s: string, pos: nat, pattern: string, replacement: string): string
    requires pos <= |s| && |pattern| > 0
    decreases |s| - pos
  {
    if |s| - pos < |pattern| then s[pos..]
    else if s[pos..pos + |pattern|] == pattern then
      Substitution(replacement, pattern, s[..pos], s[pos + |pattern|..])
        + ReplaceFrom(s, pos + |pattern|, pattern, replacement)
    else
      [s[pos]] + ReplaceFrom(s, pos + 1, pattern, replacement)
  }

  /** `s.replace(/pattern/g, replacement)` */
  function ReplaceAll(s: string, pattern: string, replacement: string): string
    requires |pattern| > 0
  {
    ReplaceFrom(s, 0, pattern, replacement)
  }

  /**
   * The text between the leftmost non-overlapping occurrences of `p`
   * (what `s.split(p)` gives): the text outside the placeholders.
   */
  function SplitOn(s: string, p: string): (pieces: seq<string>)
    requires |p| > 0
    ensures |pieces| >= 1
    decreases |s|
  {
    if |s| < |p| then [s]
    else if s[..|p|] == p then [[]] + SplitOn(s[|p|..], p)
    else
      var rest := SplitOn(s[1..], p);
      [[s[0]] + rest[0]] + rest[1..]
  }

  /** Splitting on a pattern loses nothing: joining with the pattern gives `s` back. */
  lemma {:induction false} JoinSplitOn(s: string, p: string)
    requires |p| > 0
    ensures Join(SplitOn(s, p), p) == s
    decreases |s|
  {
    if |s| >= |p| {
      if s[..|p|] == p {
        JoinSplitOn(s[|p|..], p);
        assert s == p + s[|p|..];
      } else {
        JoinSplitOn(s[1..], p);
        JoinConsFirst(s[0], SplitOn(s[1..], p), p);
        assert s == [s[0]] + s[1..];
      }
    }
  }

  /** The first piece is a prefix of the subject. */
  lemma {:induction false} SplitOnFirstIsPrefix(s: string, p: string)
    requires |p| > 0
    ensures StartsWith(s, SplitOn(s, p)[0])
    decreases |s|
  {
    if |s| >= |p| && s[..|p|] != p {
      SplitOnFirstIsPrefix(s[1..], p);
    }
  }

  /** No piece contains the pattern. */
  lemma {:induction false} SplitOnPiecesFree(s: string, p: string)
    requires |p| > 0
    ensures forall i :: 0 <= i < |SplitOn(s, p)| ==> !Occurs(SplitOn(s, p)[i], p)
    decreases |s|
  {
    if |s| < |p| {
      ShortHasNoOccurrence(s, p);
    } else if s[..|p|] == p {
      SplitOnPiecesFree(s[|p|..], p);
      assert !Occurs([], p);
    } else {
      SplitOnPiecesFree(s[1..], p);
      var rest := SplitOn(s[1..], p);
      var first := [s[0]] + rest[0];
      SplitOnFirstIsPrefix(s[1..], p);
      assert first == s[..|first|];
      assert !StartsWith(first, p);
      assert first[1..] == rest[0];
      assert !Occurs(first, p);
      forall i | 0 <= i < |SplitOn(s, p)|
        ensures !Occurs(SplitOn(s, p)[i], p)
      {
        if i > 0 {
          assert SplitOn(s, p)[i] == rest[i];
        }
      }
    }
  }

  lemma {:induction false} ShortHasNoOccurrence(s: string, p: string)
    requires |s| < |p|
    ensures !Occurs(s, p)
    decreases |s|
  {
    if s != [] {
      ShortHasNoOccurrence(s[1..], p);
    }
  }

  /** Without an occurrence of the pattern the subject is a single piece. */
  lemma {:induction false} SplitOnAbsent(s: string, p: string)
    requires |p| > 0 && !Occurs(s, p)
    ensures SplitOn(s, p) == [s]
    decreases |s|
  {
    if |s| >= |p| {
      SplitOnAbsent(s[1..], p);
      assert [s[0]] + s[1..] == s;
    }
  }

  /**
   * A replacement without `$` is literal: the result is the text outside the
   * placeholders, unchanged and in order, with the replacement between the
   * pieces.
   */
  lemma ReplaceAllPlain(s: string, pattern: string, replacement: string)
    requires |pattern| > 0 && '$' !in replacement
    ensures ReplaceAll(s, pattern, replacement) == Join(SplitOn(s, pattern), replacement)
  {
    ReplaceFromPlain(s, 0, pattern, replacement);
  }

  /** The split of text starting with a match: an empty piece, then the split of the rest. */
  lemma JoinSplitOnMatch(t: string, p: string, value: string)
    requires |p| > 0 && |t| >= |p| && t[..|p|] == p
    ensures Join(SplitOn(t, p), value) == value + Join(SplitOn(t[|p|..], p), value)
  {
    var rest := SplitOn(t[|p|..], p);
    var pieces: seq<string> := [[]] + rest;
    assert SplitOn(t, p) == pieces;
    assert pieces[1..] == rest;
    assert Join(pieces, value) == [] + value + Join(rest, value);
  }

  /** The split of text not starting with a match: its first character joins the first piece. */
  lemma JoinSplitOnSkip(t: string, p: string, value: string)
    requires |p| > 0 && |t| >= |p| && t[..|p|] != p
    ensures Join(SplitOn(t, p), value) == [t[0]] + Join(SplitOn(t[1..], p), value)
  {
    JoinConsFirst(t[0], SplitOn(t[1..], p), value);
  }

  /** One step of the scan over a match. */
  lemma ReplaceFromMatchStep(s: string, pos: nat, pattern: string, replacement: string, value: string)
    requires |pattern| > 0 && pos + |pattern| <= |s| && s[pos..pos + |pattern|] == pattern
    requires Substitution(replacement, pattern, s[..pos], s[pos + |pattern|..]) == value
    requires ReplaceFrom(s, pos + |pattern|, pattern, replacement) == Join(SplitOn(s[pos + |pattern|..], pattern), value)
    ensures ReplaceFrom(s, pos, pattern, replacement) == Join(SplitOn(s[pos..], pattern), value)
  {
    var t := s[pos..];
    assert t[..|pattern|] == pattern;
    assert t[|pattern|..] == s[pos + |pattern|..];
    JoinSplitOnMatch(t, pattern, value);
  }

  /** One step of the scan over a character that starts no match. */
  lemma ReplaceFromSkipStep(s: string, pos: nat, pattern: string, replacement: string, value: string)
    requires |pattern| > 0 && pos + |pattern| <= |s| && s[pos..pos + |pattern|] != pattern
    requires ReplaceFrom(s, pos + 1, pattern, replacement) == Join(SplitOn(s[pos + 1..], pattern), value)
    ensures ReplaceFrom(s, pos, pattern, replacement) == Join(SplitOn(s[pos..], pattern), value)
  {
    var t := s[pos..];
    assert t[..|pattern|] == s[pos..pos + |pattern|];
    assert t[1..] == s[pos + 1..];
    JoinSplitOnSkip(t, pattern, value);
  }

  /** A `$`-free replacement is its own escape, so the literal scan covers it. */
  lemma ReplaceFromPlain(s: string, pos: nat, pattern: string, replacement: string)
    requires pos <= |s| && |pattern| > 0 && '$' !in replacement
    ensures ReplaceFrom(s, pos, pattern, replacement) == Join(SplitOn(s[pos..], pattern), replacement)
  {
    ReplaceLiteralFrom(s, pos, pattern, replacement);
  }

  /** A subject without the pattern comes out unchanged, whatever the replacement. */
  lemma ReplaceAllAbsent(s: string, pattern: string, replacement: string)
    requires |pattern| > 0 && !Occurs(s, pattern)
    ensures ReplaceAll(s, pattern, replacement) == s
  {
    ReplaceFromAbsent(s, 0, pattern, replacement);
  }

  lemma {:induction false} ReplaceFromAbsent(s: string, pos: nat, pattern: string, replacement: string)
    requires pos <= |s| && |pattern| > 0 && !Occurs(s[pos..], pattern)
    ensures ReplaceFrom(s, pos, pattern, replacement) == s[pos..]
    decreases |s| - pos
  {
    if |s| - pos >= |pattern| {
      assert s[pos..][..|pattern|] == s[pos..pos + |pattern|];
      assert s[pos..][1..] == s[pos + 1..];
      ReplaceFromAbsent(s, pos + 1, pattern, replacement);
    }
  }

  /** A subject that is exactly the pattern splits into two empty pieces. */
  lemma SplitOnSelf(p: string)
    requires |p| > 0
    ensures SplitOn(p, p) == [[], []]
  {
    assert p[..|p|] == p;
    assert p[|p|..] == [];
  }

  /** A subject that is exactly the pattern becomes the substitution of the replacement for that one match. */
  lemma ReplaceAllWhole(p: string, replacement: string)
    requires |p| > 0
    ensures ReplaceAll(p, p, replacement) == Substitution(replacement, p, [], [])
  {
    assert p[0..|p|] == p;
    assert p[..0] == [];
    assert p[|p|..] == [];
    assert ReplaceFrom(p, |p|, p, replacement) == [];
    var sub := Substitution(replacement, p, [], []);
    assert sub + [] == sub;
  }

  /**
   * Replacing a placeholder by itself (without `$`) changes nothing: the
   * replacement step and the split are inverse.
   */
  lemma ReplaceAllByItself(s: string, pattern: string)
    requires |pattern| > 0 && '$' !in pattern
    ensures ReplaceAll(s, pattern, pattern) == s
  {
    ReplaceAllPlain(s, pattern, pattern);
    JoinSplitOn(s, pattern);
  }

  /**
   * Even a replacement that does not contain the placeholder can leave an
   * occurrence of it behind: the text on both sides of a removed match can
   * form a new one.
   */
  lemma PlaceholderCanReform()
    ensures ReplaceAll("{{{ name }}{ name }}", "{{ name }}", "") == "{{ name }}"
  {
    var s := "{{{ name }}{ name }}";
    var p := "{{ name }}";
    assert s[0..10][2] != p[2];
    assert s[1..11] == p;
    ShortHasNoOccurrence(s[11..], p);
    ReplaceFromAbsent(s, 11, p, "");
  }

  // ---------------------------------------------------------------------------
  // Literal replacement

  /** Doubles every `$`, so that `GetSubstitution` yields the text itself. */
  function EscapeDollars(r: string): (e: string)
    ensures '$' !in r ==> e == r
  {
    if r == [] then []
    else if r[0] == '$' then "$$" + EscapeDollars(r[1..])
    else [r[0]] + EscapeDollars(r[1..])
  }

  /** An escaped replacement is inserted literally, whatever it holds. */
  lemma {:induction false} SubstitutionOfEscaped(r: string, matched: string, before: string, after: string)
    ensures Substitution(EscapeDollars(r), matched, before, after) == r
  {
    if r != [] {
      SubstitutionOfEscaped(r[1..], matched, before, after);
      var e := EscapeDollars(r);
      if r[0] == '$' {
        assert e[2..] == EscapeDollars(r[1..]);
      } else {
        assert e[1..] == EscapeDollars(r[1..]);
      }
      assert r == [r[0]] + r[1..];
    }
  }

  /**
   * The literal replacement `s.replaceAll(pattern, () => value)`: the text
   * outside the placeholders, unchanged and in order, with `value` between
   * the pieces, for every `value`.
   */
  function ReplaceAllLiteral(s: string, pattern: string, value: string): (r: string)
    requires |pattern| > 0
    ensures r == Join(SplitOn(s, pattern), value)
  {
    ReplaceLiteralFrom(s, 0, pattern, value);
    ReplaceFrom(s, 0, pattern, EscapeDollars(value))
  }

  /** One step of the literal scan over a match. */
  lemma ReplaceLiteralMatchStep(s: string, pos: nat, pattern: string, value: string)
    requires |pattern| > 0 && pos + |pattern| <= |s| && s[pos..pos + |pattern|] == pattern
    requires ReplaceFrom(s, pos + |pattern|, pattern, EscapeDollars(value)) == Join(SplitOn(s[pos + |pattern|..], pattern), value)
    ensures ReplaceFrom(s, pos, pattern, EscapeDollars(value)) == Join(SplitOn(s[pos..], pattern), value)
  {
    SubstitutionOfEscaped(value, pattern, s[..pos], s[pos + |pattern|..]);
    ReplaceFromMatchStep(s, pos, pattern, EscapeDollars(value), value);
  }

  /** The scan with an escaped replacement inserts `value` at every match. */
  lemma ReplaceLiteralFrom(s: string, pos: nat, pattern: string, value: string)
    requires pos <= |s| && |pattern| > 0
    ensures ReplaceFrom(s, pos, pattern, EscapeDollars(value)) == Join(SplitOn(s[pos..], pattern), value)
  {
    ReplaceFromEscaped(s, pos, pattern, EscapeDollars(value), value);
  }

  /** `ReplaceLiteralFrom` by induction on the rest of the subject. */
  lemma {:induction false} ReplaceFromEscaped(s: string, pos: nat, pattern: string, e: string, value: string)
    requires pos <= |s| && |pattern| > 0 && e == EscapeDollars(value)
    ensures ReplaceFrom(s, pos, pattern, e) == Join(SplitOn(s[pos..], pattern), value)
    decreases |s| - pos
  {
    if |s| - pos < |pattern| {
      assert SplitOn(s[pos..], pattern) == [s[pos..]];
    } else if s[pos..pos + |pattern|] == pattern {
      ReplaceFromEscaped(s, pos + |pattern|, pattern, e, value);
      ReplaceLiteralMatchStep(s, pos, pattern, value);
    } else {
      ReplaceFromEscaped(s, pos + 1, pattern, e, value);
      ReplaceFromSkipStep(s, pos, pattern, e, value);
    }
  }
}

=== FILE: js_string.dfy ===
/**
 * The JavaScript string operations the scripts rely on, restricted to ASCII
 * where the language works on Unicode: `startsWith`, `endsWith`,
 * `split` on a one-character separator, `trim`, `toLowerCase`, and the
 * whitespace class `\s`.
 */
module JsString {

  /** `s.startsWith(prefix)` */
  predicate StartsWith(s: string, prefix: string) {
    |prefix| <= |s| && s[..|prefix|] == prefix
  }

  /** `s.endsWith(suffix)` */
  predicate EndsWith(s: string, suffix: string) {
    |suffix| <= |s| && s[|s| - |suffix|..] == suffix
  }

  /**
   * The ASCII members of the whitespace set shared by `\s`, `trim` and
   * `parseInt`: tab, line feed, vertical tab, form feed, carriage return
   * and space.
   */
  predicate IsSpace(c: char) {
    c == ' ' || c == '\t' || c == '\n' || c == '\U{000B}' || c == '\U{000C}' || c == '\r'
  }

  predicate NoSpace(s: string) {
    forall i :: 0 <= i < |s| ==> !IsSpace(s[i])
  }

  predicate AllSpace(s: string) {
    forall i :: 0 <= i < |s| ==> IsSpace(s[i])
  }

  // ---------------------------------------------------------------------------
  // split(sep) for a one-character separator

  /**
   * `s.split(sep)`: the maximal pieces between occurrences of `sep`. There is
   * always at least one piece (the empty string splits into `[""]`) and no
   * piece holds the separator.
   */
  function Split(s: string, sep: char): (pieces: seq<string>)
    ensures |pieces| >= 1
    ensures forall i :: 0 <= i < |pieces| ==> sep !in pieces[i]
  {
    if s == [] then [[]]
    else
      var rest := Split(s[1..], sep);
      if s[0] == sep then [[]] + rest
      else [[s[0]] + rest[0]] + rest[1..]
  }

  /** `pieces.join(sep)` */
  function Join(pieces: seq<string>, sep: string): (s: string)
    requires |pieces| >= 1
  {
    if |pieces| == 1 then pieces[0]
    else pieces[0] + sep + Join(pieces[1..], sep)
  }

  /** Prepending a character to the first piece prepends it to the join. */
  lemma JoinConsFirst(c: char, pieces: seq<string>, sep: string)
    requires |pieces| >= 1
    ensures Join([[c] + pieces[0]] + pieces[1..], sep) == [c] + Join(pieces, sep)
  {
    var ps := [[c] + pieces[0]] + pieces[1..];
    if |pieces| > 1 {
      assert ps[1..] == pieces[1..];
    }
  }

  /** Splitting loses nothing: joining the pieces again gives back the string. */
  lemma {:induction false} JoinSplit(s: string, sep: char)
    ensures Join(Split(s, sep), [sep]) == s
  {
    if s != [] {
      JoinSplit(s[1..], sep);
      if s[0] != sep {
        JoinConsFirst(s[0], Split(s[1..], sep), [sep]);
      }
    }
  }

  /** Splitting a join of separator-free pieces gives back the pieces. */
  lemma {:induction false} SplitJoin(pieces: seq<string>, sep: char)
    requires |pieces| >= 1
    requires forall i :: 0 <= i < |pieces| ==> sep !in pieces[i]
    ensures Split(Join(pieces, [sep]), sep) == pieces
  {
    if |pieces| == 1 {
      SplitFree(pieces[0], sep);
    } else {
      SplitJoin(pieces[1..], sep);
      SplitPrefix(pieces[0], [sep] + Join(pieces[1..], [sep]), sep);
      assert Join(pieces, [sep]) == pieces[0] + ([sep] + Join(pieces[1..], [sep]));
      assert ([sep] + Join(pieces[1..], [sep]))[1..] == Join(pieces[1..], [sep]);
    }
  }

  /** A string without the separator is a single piece. */
  lemma {:induction false} SplitFree(s: string, sep: char)
    requires sep !in s
    ensures Split(s, sep) == [s]
  {
    if s != [] {
      assert s[0] in s;
      SplitFree(s[1..], sep);
      assert [s[0]] + s[1..] == s;
    }
  }

  /** A separator-free prefix becomes the front of the first piece. */
  lemma {:induction false} SplitPrefix(p: string, t: string, sep: char)
    requires sep !in p
    requires t != [] && t[0] == sep
    ensures Split(p + t, sep) == [p] + Split(t[1..], sep)
  {
    if p == [] {
      assert p + t == t;
    } else {
      assert p[0] in p;
      SplitPrefix(p[1..], t, sep);
      assert (p + t)[1..] == p[1..] + t;
      assert [p[0]] + p[1..] == p;
    }
  }

  /**
   * The first piece is the text before the first separator: when `s` starts
   * with `head + [sep]` and `head` has no separator, piece 0 is `head` and
   * piece 1 is the text from there up to the next separator.
   */
  lemma {:induction false} SplitAfterHead(head: string, tail: string, sep: char)
    requires sep !in head
    ensures |Split(head + [sep] + tail, sep)| >= 2
    ensures Split(head + [sep] + tail, sep)[0] == head
    ensures Split(head + [sep] + tail, sep)[1] == Split(tail, sep)[0]
  {
    SplitPrefix(head, [sep] + tail, sep);
    assert head + [sep] + tail == head + ([sep] + tail);
    assert ([sep] + tail)[1..] == tail;
  }

  // ---------------------------------------------------------------------------
  // trim()

  /** Drops leading whitespace. */
  function TrimStart(s: string): (r: string)
    ensures |r| <= |s|
  {
    if s != [] && IsSpace(s[0]) then TrimStart(s[1..]) else s
  }

  /** What `TrimStart` drops is all whitespace, and what it keeps is a suffix not starting with whitespace. */
  lemma {:induction false} TrimStartSpec(s: string)
    ensures var r := TrimStart(s);
      r == s[|s| - |r|..] && AllSpace(s[..|s| - |r|]) && (r != [] ==> !IsSpace(r[0]))
  {
    if s != [] && IsSpace(s[0]) {
      TrimStartSpec(s[1..]);
    }
  }

  /** Whitespace in front of a non-space start is skipped entirely. */
  lemma {:induction false} TrimStartOfParts(ws: string, t: string)
    requires AllSpace(ws)
    requires t == [] || !IsSpace(t[0])
    ensures TrimStart(ws + t) == t
  {
    if ws != [] {
      assert (ws + t)[1..] == ws[1..] + t;
      TrimStartOfParts(ws[1..], t);
    }
  }

  /** Drops trailing whitespace. */
  function TrimEnd(s: string): (r: string)
    ensures |r| <= |s|
  {
    if s != [] && IsSpace(s[|s| - 1]) then TrimEnd(s[..|s| - 1]) else s
  }

  /** What `TrimEnd` drops is all whitespace, and what it keeps is a prefix not ending with whitespace. */
  lemma {:induction false} TrimEndSpec(s: string)
    ensures var r := TrimEnd(s);
      r == s[..|r|] && AllSpace(s[|r|..]) && (r != [] ==> !IsSpace(r[|r| - 1]))
  {
    if s != [] && IsSpace(s[|s| - 1]) {
      TrimEndSpec(s[..|s| - 1]);
    }
  }

  /** `s.trim()` */
  function Trim(s: string): (r: string)
  {
    TrimEnd(TrimStart(s))
  }

  /**
   * `trim` removes whitespace from both ends and nothing else: the result is
   * a contiguous part of `s`, everything around it is whitespace, and it
   * neither starts nor ends with whitespace.
   */
  lemma TrimSpec(s: string)
    ensures var i := |s| - |TrimStart(s)|;
      i + |Trim(s)| <= |s| && Trim(s) == s[i..i + |Trim(s)|] && AllSpace(s[..i]) && AllSpace(s[i + |Trim(s)|..])
    ensures Trim(s) != [] ==> !IsSpace(Trim(s)[0]) && !IsSpace(Trim(s)[|Trim(s)| - 1])
  {
    var t := TrimStart(s);
    var r := TrimEnd(t);
    TrimStartSpec(s);
    TrimEndSpec(t);
    var i := |s| - |t|;
    assert t == s[i..];
    assert r == t[..|r|] == s[i..i + |r|];
    assert s[i + |r|..] == t[|r|..];
  }

  /** Trimming twice is trimming once. */
  lemma TrimIdempotent(s: string)
    ensures Trim(Trim(s)) == Trim(s)
  {
    var r := Trim(s);
    if r != [] {
      TrimSpec(s);
      assert TrimStart(r) == r;
      assert TrimEnd(r) == r;
    }
  }

  /** `trim` adds no character: a character absent from `s` is absent from `s.trim()`. */
  lemma TrimKeepsAbsence(s: string, c: char)
    requires c !in s
    ensures c !in Trim(s)
  {
    TrimSpec(s);
  }

  // ---------------------------------------------------------------------------
  // toLowerCase() on ASCII letters

  function LowerChar(c: char): char {
    if 'A' <= c <= 'Z' then (c as int + 32) as char else c
  }

  /** `s.toLowerCase()` for ASCII letters; other characters are kept as they are. */
  function ToLower(s: string): (r: string)
    ensures |r| == |s|
  {
    if s == [] then [] else [LowerChar(s[0])] + ToLower(s[1..])
  }

  /**
   * Lowering changes only upper-case letters, each into its lower-case
   * letter, and leaves no upper-case ASCII letter.
   */
  lemma {:induction false} ToLowerSpec(s: string)
    ensures forall i :: 0 <= i < |s| ==> ToLower(s)[i] == LowerChar(s[i])
    ensures forall i :: 0 <= i < |s| ==> !('A' <= ToLower(s)[i] <= 'Z')
  {
    if s != [] {
      ToLowerSpec(s[1..]);
    }
  }

  /** Lowering works character by character, so it distributes over concatenation. */
  lemma ToLowerAppend(a: string, b: string)
    ensures ToLower(a + b) == ToLower(a) + ToLower(b)
  {
    ToLowerSpec(a + b);
    ToLowerSpec(a);
    ToLowerSpec(b);
    var r := ToLower(a + b);
    var t := ToLower(a) + ToLower(b);
    forall i | 0 <= i < |r|
      ensures r[i] == t[i]
    {
      if i < |a| {
        assert (a + b)[i] == a[i];
      } else {
        assert (a + b)[i] == b[i - |a|];
      }
    }
  }

  /** Lowering twice is lowering once. */
  lemma ToLowerIdempotent(s: string)
    ensures ToLower(ToLower(s)) == ToLower(s)
  {
    ToLowerSpec(s);
    ToLowerSpec(ToLower(s));
  }
}

=== FILE: update_automations.dfy ===
/**
 * The update script: scan the automation blueprints, list the automations
 * Home Assistant runs, and re-post every `[CDA]` automation whose blueprint
 * was found. Directory listings, file reads, the YAML parser and the HTTP
 * calls are parameters (oracles); the model records the remote calls a run
 * issues as a trace of `Step`s.
 */
module UpdateAutomations {
  import opened Wrappers
  import opened JsString
  import opened BlueprintFiles

  /** An automation as `GET /api/services/automation/list` lists it; `name` may be missing. */
  datatype Automation = Automation(id: string, name: Option<string>)

  /** The reply to `GET /api/services/automation/get/<id>`: the automation's current inputs, if any. */
  datatype CurrentAutomation = CurrentAutomation(input: Option<map<string, string>>)

  /** The body posted to `/api/services/automation/reload`. */
  datatype UpdateData = UpdateData(blueprint: Blueprint, automationId: string, input: map<string, string>)

  /** What a run does outside the process, in order. */
  datatype Step =
    | ReadBlueprintsDir
    | ListAutomations
    | GetAutomation(id: string)
    | ReloadAutomation(data: UpdateData)

  /** `HA_TOKEN` is set and not empty (a JavaScript truthy string). */
  predicate HasToken(token: Option<string>) {
    token.Some? && token.value != []
  }

  /**
   * `getHeaders()`: `None` where it throws, which is exactly when the token
   * is missing; otherwise a bearer authorization carrying the token.
   */
  function GetHeaders(token: Option<string>): (headers: Option<map<string, string>>)
    ensures headers.Some? <==> HasToken(token)
    ensures headers.Some? ==>
      && "Authorization" in headers.value && "Content-Type" in headers.value
      && StartsWith(headers.value["Authorization"], "Bearer ")
      && headers.value["Authorization"][7..] == token.value
  {
    if !HasToken(token) then None
    else Some(map["Authorization" := "Bearer " + token.value, "Content-Type" := "application/json"])
  }

  // ---------------------------------------------------------------------------
  // getBlueprints

  /** The blueprint one directory entry yields, read through `read`. */
  function Loaded(file: string, read: string -> Option<string>, parse: string -> Option<Blueprint>): Option<Blueprint> {
    Load(file, read(file), parse)
  }

  /**
   * The dictionary `getBlueprints` builds from the entries `files`, in
   * order: each yielded blueprint is stored under its full name. Every key
   * therefore starts with the marker and names its own blueprint.
   */
  function Collect(files: seq<string>, read: string -> Option<string>, parse: string -> Option<Blueprint>): (blueprints: map<string, Blueprint>)
    ensures forall k :: k in blueprints ==> StartsWith(k, Marker) && blueprints[k].name == Some(k)
  {
    if files == [] then map[]
    else
      var earlier := Collect(files[..|files| - 1], read, parse);
      var bp := Loaded(files[|files| - 1], read, parse);
      if bp.Some? then earlier[bp.value.name.value := bp.value] else earlier
  }

  /** `getBlueprints()` once `readdirSync` has listed `files`. */
  method GetBlueprints(files: seq<string>, read: string -> Option<string>, parse: string -> Option<Blueprint>)
    returns (blueprints: map<string, Blueprint>)
    ensures blueprints == Collect(files, read, parse)
  {
    blueprints := map[];
    for i := 0 to |files|
      invariant blueprints == Collect(files[..i], read, parse)
    {
      var file := files[i];
      if EndsWith(file, ".yaml") {
        var content := read(file);
        if content.Some? {
          var parsed := parse(content.value);
          if parsed.Some? && IsManaged(parsed.value) {
            blueprints := blueprints[parsed.value.name.value := parsed.value];
          }
        }
      }
      assert files[..i + 1][..i] == files[..i];
    }
    assert files[..|files|] == files;
  }

  /** A file that cannot be read or parsed, or is not a marked blueprint, changes nothing: the others are processed as if it were absent. */
  lemma {:induction false} CollectSkipsFailed(pre: seq<string>, file: string, post: seq<string>,
                                              read: string -> Option<string>, parse: string -> Option<Blueprint>)
    requires Loaded(file, read, parse).None?
    ensures Collect(pre + [file] + post, read, parse) == Collect(pre + post, read, parse)
    decreases |post|
  {
    var all := pre + [file] + post;
    if post == [] {
      assert all[..|all| - 1] == pre;
      assert pre + post == pre;
    } else {
      var init := post[..|post| - 1];
      CollectSkipsFailed(pre, file, init, read, parse);
      assert all[..|all| - 1] == pre + [file] + init;
      assert (pre + post)[..|pre + post| - 1] == pre + init;
    }
  }

  /**
   * Last one wins: the entry stored under a name is the blueprint of the
   * last file yielding that name.
   */
  lemma {:induction false} CollectLastWins(files: seq<string>, i: nat, read: string -> Option<string>, parse: string -> Option<Blueprint>)
    requires i < |files| && Loaded(files[i], read, parse).Some?
    requires forall j :: i < j < |files| && Loaded(files[j], read, parse).Some? ==>
      Loaded(files[j], read, parse).value.name != Loaded(files[i], read, parse).value.name
    ensures var bp := Loaded(files[i], read, parse).value;
      bp.name.value in Collect(files, read, parse) && Collect(files, read, parse)[bp.name.value] == bp
  {
    var n := |files| - 1;
    if i < n {
      var init := files[..n];
      assert forall j :: i < j < |init| ==> init[j] == files[j];
      CollectLastWins(init, i, read, parse);
    }
  }

  /** Every stored entry is the blueprint some listed file yields. */
  lemma {:induction false} CollectFromFiles(files: seq<string>, k: string, read: string -> Option<string>, parse: string -> Option<Blueprint>)
    requires k in Collect(files, read, parse)
    ensures exists i :: 0 <= i < |files| && Loaded(files[i], read, parse) == Some(Collect(files, read, parse)[k])
  {
    var n := |files| - 1;
    var bp := Loaded(files[n], read, parse);
    if bp.Some? && bp.value.name.value == k {
      assert Loaded(files[n], read, parse) == Some(Collect(files, read, parse)[k]);
    } else {
      var init := files[..n];
      CollectFromFiles(init, k, read, parse);
      var i :| 0 <= i < |init| && Loaded(init[i], read, parse) == Some(Collect(init, read, parse)[k]);
      assert files[i] == init[i];
    }
  }

  // ---------------------------------------------------------------------------
  // Matching

  /** A name starting with `[CDA]` has a `]` at index 4, so `split(']')` gives it a second piece. */
  lemma MarkerSplit(name: string)
    requires StartsWith(name, Marker)
    ensures |Split(name, ']')| >= 2
    ensures Split(name, ']')[1] == Split(name[|Marker|..], ']')[0]
  {
    assert name == "[CDA" + [']'] + name[|Marker|..];
    SplitAfterHead("[CDA", name[|Marker|..], ']');
  }

  /**
   * `name.split(']')[1].trim()`: the text between the marker and the next
   * `]`, trimmed. It never contains `]`.
   */
  function LookupKey(name: string): (key: string)
    requires StartsWith(name, Marker)
    ensures ']' !in key
  {
    MarkerSplit(name);
    TrimKeepsAbsence(Split(name, ']')[1], ']');
    Trim(Split(name, ']')[1])
  }

  /** Without a second `]`, the key is the trimmed rest of the name after the marker. */
  lemma LookupKeyOfPlainName(rest: string)
    requires ']' !in rest
    ensures StartsWith(Marker + rest, Marker)
    ensures LookupKey(Marker + rest) == Trim(rest)
  {
    var name := Marker + rest;
    assert name[..|Marker|] == Marker;
    MarkerSplit(name);
    assert name[|Marker|..] == rest;
    SplitFree(rest, ']');
  }

  /**
   * The blueprint the update loop picks for an automation named `name`
   * (`''` when missing): none unless the name starts with the marker and
   * its lookup key is a key of the dictionary.
   */
  function MatchedBlueprint(name: string, blueprints: map<string, Blueprint>): (r: Option<Blueprint>)
    ensures r.Some? ==> StartsWith(name, Marker) && LookupKey(name) in blueprints
  {
    if !StartsWith(name, Marker) then None
    else
      var key := LookupKey(name);
      if key in blueprints then Some(blueprints[key]) else None
  }

  lemma MarkedHasBracket(k: string)
    requires StartsWith(k, Marker)
    ensures ']' in k
  {
    assert k[4] == Marker[4];
  }

  /**
   * The lookup never succeeds against a dictionary of marked names: every
   * stored key holds the `]` of its marker, and no lookup key holds one.
   */
  lemma MatchNeverHits(name: string, blueprints: map<string, Blueprint>)
    requires forall k :: k in blueprints ==> StartsWith(k, Marker)
    ensures MatchedBlueprint(name, blueprints) == None
  {
    forall k | k in blueprints
      ensures ']' in k
    {
      MarkedHasBracket(k);
    }
  }

  /** The automation `[CDA] Hallway Light` is not matched to the blueprint `[CDA] Hallway Light`. */
  lemma HallwayLightNotMatched(bp: Blueprint)
    ensures MatchedBlueprint("[CDA] Hallway Light", map["[CDA] Hallway Light" := bp]) == None
    ensures LookupKey("[CDA] Hallway Light") == "Hallway Light"
  {
    var rest := " Hallway Light";
    assert Marker + rest == "[CDA] Hallway Light";
    assert LookupKey(Marker + rest) == "Hallway Light" by {
      LookupKeyOfPlainName(rest);
      TrimStartOfParts(" ", "Hallway Light");
      assert " " + "Hallway Light" == rest;
    }
    assert StartsWith(Marker + rest, Marker) by {
      assert (Marker + rest)[..|Marker|] == Marker;
    }
    MatchNeverHits(Marker + rest, map[Marker + rest := bp]);
  }

  // ---------------------------------------------------------------------------
  // The evidently intended matching: blueprints indexed by the same key

  /** The blueprints indexed by the lookup key of their names (last one wins). */
  function CollectByKey(files: seq<string>, read: string -> Option<string>, parse: string -> Option<Blueprint>): (index: map<string, Blueprint>)
    ensures forall k :: k in index ==> IsManaged(index[k]) && LookupKey(index[k].name.value) == k
  {
    if files == [] then map[]
    else
      var earlier := CollectByKey(files[..|files| - 1], read, parse);
      var bp := Loaded(files[|files| - 1], read, parse);
      if bp.Some? then earlier[LookupKey(bp.value.name.value) := bp.value] else earlier
  }

  /**
   * With blueprints indexed by key, the same lookup matches an automation
   * whenever some file yields a blueprint with the same key, and only to a
   * blueprint with that key.
   */
  lemma {:induction false} KeyedMatchFinds(files: seq<string>, i: nat, name: string,
                                              read: string -> Option<string>, parse: string -> Option<Blueprint>)
    requires StartsWith(name, Marker)
    requires i < |files| && Loaded(files[i], read, parse).Some?
    requires LookupKey(Loaded(files[i], read, parse).value.name.value) == LookupKey(name)
    ensures var m := MatchedBlueprint(name, CollectByKey(files, read, parse));
      m.Some? && IsManaged(m.value) && LookupKey(m.value.name.value) == LookupKey(name)
  {
    var n := |files| - 1;
    if i < n {
      KeyedMatchFinds(files[..n], i, name, read, parse);
    }
  }

  /**
   * With the corrected index, the automation `[CDA] Hallway Light` finds the
   * blueprint `[CDA] Hallway Light` that the file `f` yields.
   */
  lemma HallwayLightMatchedByKey(f: string, bp: Blueprint, read: string -> Option<string>, parse: string -> Option<Blueprint>)
    requires Loaded(f, read, parse) == Some(bp) && bp.name == Some("[CDA] Hallway Light")
    ensures MatchedBlueprint("[CDA] Hallway Light", CollectByKey([f], read, parse)) == Some(bp)
  {
    HallwayLightNotMatched(bp);
    assert [f][..0] == [];
    var index := map["Hallway Light" := bp];
    assert CollectByKey([f], read, parse) == index;
    assert StartsWith("[CDA] Hallway Light", Marker) by {
      assert "[CDA] Hallway Light"[..|Marker|] == Marker;
    }
  }

  // ---------------------------------------------------------------------------
  // updateAutomation and the update loop

  /** The reload body: the blueprint, the id, and the automation's current inputs (`{}` when it has none). */
  function Payload(id: string, bp: Blueprint, current: CurrentAutomation): UpdateData {
    UpdateData(bp, id, current.input.GetOr(map[]))
  }

  /** Whether one update attempt succeeded, and the remote calls it made. */
  datatype Attempt = Attempt(ok: bool, calls: seq<Step>)

  /**
   * `updateAutomation(id, blueprint)`: fetch the automation (`fetch` is
   * `None` where the request fails), then post the payload (`reload` is
   * false where the post fails). Every failure becomes `false`.
   */
  function UpdateAutomation(id: string, bp: Blueprint, fetch: string -> Option<CurrentAutomation>, reload: UpdateData -> bool): (a: Attempt)
    ensures |a.calls| >= 1 && a.calls[0] == GetAutomation(id)
    ensures a.ok <==> fetch(id).Some? && reload(Payload(id, bp, fetch(id).value))
    ensures fetch(id).None? ==> a.calls == [GetAutomation(id)]
    ensures fetch(id).Some? ==> a.calls == [GetAutomation(id), ReloadAutomation(Payload(id, bp, fetch(id).value))]
  {
    match fetch(id)
    case None => Attempt(false, [GetAutomation(id)])
    case Some(current) =>
      var data := Payload(id, bp, current);
      Attempt(reload(data), [GetAutomation(id), ReloadAutomation(data)])
  }

  /** The posted inputs are the automation's own: the blueprint's inputs are not merged in. */
  lemma PayloadKeepsCurrentInputs(id: string, bp: Blueprint, current: CurrentAutomation)
    ensures Payload(id, bp, current).automationId == id
    ensures Payload(id, bp, current).blueprint == bp
    ensures current.input.Some? ==> Payload(id, bp, current).input == current.input.value
    ensures current.input.None? ==> Payload(id, bp, current).input == map[]
  {
  }

  /** Current inputs `{brightness: 80}` against blueprint inputs `{brightness: 50, color: "warm"}` post `{brightness: 80}`. */
  lemma NoInputMerge(bp: Blueprint)
    requires bp.input == map["brightness" := "50", "color" := "\"warm\""]
    ensures Payload("a1", bp, CurrentAutomation(Some(map["brightness" := "80"]))).input == map["brightness" := "80"]
  {
  }

  /** The loop body for one automation. */
  function Process(a: Automation, blueprints: map<string, Blueprint>,
                   fetch: string -> Option<CurrentAutomation>, reload: UpdateData -> bool): Attempt
  {
    var m := MatchedBlueprint(a.name.GetOr(""), blueprints);
    if m.None? then Attempt(false, []) else UpdateAutomation(a.id, m.value, fetch, reload)
  }

  /** The counter `updated` and the remote calls after the loop has seen `automations`. */
  datatype Tally = Tally(updated: nat, calls: seq<Step>)

  function RunUpdates(automations: seq<Automation>, blueprints: map<string, Blueprint>,
                      fetch: string -> Option<CurrentAutomation>, reload: UpdateData -> bool): (t: Tally)
    ensures t.updated <= |automations|
  {
    if automations == [] then Tally(0, [])
    else
      var t := RunUpdates(automations[..|automations| - 1], blueprints, fetch, reload);
      var a := Process(automations[|automations| - 1], blueprints, fetch, reload);
      Tally(t.updated + (if a.ok then 1 else 0), t.calls + a.calls)
  }

  /** The loop in `main`: one attempt per matched automation, counting the successes. */
  method UpdateAll(automations: seq<Automation>, blueprints: map<string, Blueprint>,
                   fetch: string -> Option<CurrentAutomation>, reload: UpdateData -> bool)
    returns (updated: nat, calls: seq<Step>)
    ensures Tally(updated, calls) == RunUpdates(automations, blueprints, fetch, reload)
  {
    updated, calls := 0, [];
    for i := 0 to |automations|
      invariant Tally(updated, calls) == RunUpdates(automations[..i], blueprints, fetch, reload)
    {
      var automation := automations[i];
      var name := automation.name.GetOr("");
      if StartsWith(name, Marker) {
        var blueprintName := LookupKey(name);
        if blueprintName in blueprints {
          var attempt := UpdateAutomation(automation.id, blueprints[blueprintName], fetch, reload);
          calls := calls + attempt.calls;
          if attempt.ok {
            updated := updated + 1;
          }
        }
      }
      assert automations[..i + 1][..i] == automations[..i];
    }
    assert automations[..|automations|] == automations;
  }

  /** Automations without the marker, or with no name, are never fetched or posted. */
  lemma UnmarkedUntouched(a: Automation, blueprints: map<string, Blueprint>,
                          fetch: string -> Option<CurrentAutomation>, reload: UpdateData -> bool)
    requires !StartsWith(a.name.GetOr(""), Marker)
    ensures Process(a, blueprints, fetch, reload) == Attempt(false, [])
  {
  }

  /** Against a dictionary of marked names the loop updates nothing and calls nothing. */
  lemma {:induction false} RunUpdatesNeverHits(automations: seq<Automation>, blueprints: map<string, Blueprint>,
                                               fetch: string -> Option<CurrentAutomation>, reload: UpdateData -> bool)
    requires forall k :: k in blueprints ==> StartsWith(k, Marker)
    ensures RunUpdates(automations, blueprints, fetch, reload) == Tally(0, [])
  {
    if automations != [] {
      RunUpdatesNeverHits(automations[..|automations| - 1], blueprints, fetch, reload);
      MatchNeverHits(automations[|automations| - 1].name.GetOr(""), blueprints);
    }
  }

  /**
   * With blueprints indexed by key, a marked automation whose key some file
   * yields is updated when its fetch and reload succeed.
   */
  lemma KeyedUpdateCounts(a: Automation, files: seq<string>, i: nat, read: string -> Option<string>,
                          parse: string -> Option<Blueprint>, fetch: string -> Option<CurrentAutomation>, reload: UpdateData -> bool)
    requires StartsWith(a.name.GetOr(""), Marker)
    requires i < |files| && Loaded(files[i], read, parse).Some?
    requires LookupKey(Loaded(files[i], read, parse).value.name.value) == LookupKey(a.name.GetOr(""))
    requires fetch(a.id).Some?
    requires var index, key := CollectByKey(files, read, parse), LookupKey(a.name.GetOr(""));
      key in index ==> reload(Payload(a.id, index[key], fetch(a.id).value))
    ensures RunUpdates([a], CollectByKey(files, read, parse), fetch, reload).updated == 1
  {
    KeyedMatchFinds(files, i, a.name.GetOr(""), read, parse);
    assert [a][..0] == [];
  }

  // ---------------------------------------------------------------------------
  // main

  /**
   * Everything a run depends on: the token, the directory listing (`None`
   * where `readdirSync` throws), file reads, the YAML parser, the automation
   * listing (`None` where the request fails), and the get and reload calls.
   */
  datatype Environment = Environment(
    token: Option<string>,
    files: Option<seq<string>>,
    read: string -> Option<string>,
    parse: string -> Option<Blueprint>,
    automations: Option<seq<Automation>>,
    fetch: string -> Option<CurrentAutomation>,
    reload: UpdateData -> bool)

  datatype Outcome = MissingToken | ScanFailed | NoBlueprints | ListFailed | Finished(updated: nat)

  /** The process exit status of each outcome. */
  function ExitCode(outcome: Outcome): (code: int)
    ensures code == 0 <==> outcome.NoBlueprints? || outcome.Finished?
  {
    if outcome.NoBlueprints? || outcome.Finished? then 0 else 1
  }

  /**
   * `main()`. A missing token stops the run before anything else; an empty
   * scan stops it before any remote call; otherwise the automations are
   * listed and, as written, not one of them is updated.
   */
  method Run(env: Environment) returns (outcome: Outcome, steps: seq<Step>)
    ensures !HasToken(env.token) ==> outcome == MissingToken && steps == []
    ensures HasToken(env.token) && env.files.None? ==> outcome == ScanFailed && steps == [ReadBlueprintsDir]
    ensures HasToken(env.token) && env.files.Some? && Collect(env.files.value, env.read, env.parse) == map[] ==>
      outcome == NoBlueprints && steps == [ReadBlueprintsDir]
    ensures HasToken(env.token) && env.files.Some? && Collect(env.files.value, env.read, env.parse) != map[] ==>
      steps == [ReadBlueprintsDir, ListAutomations]
      && outcome == (if env.automations.None? then ListFailed else Finished(0))
  {
    if !HasToken(env.token) {
      return MissingToken, [];
    }
    steps := [ReadBlueprintsDir];
    if env.files.None? {
      return ScanFailed, steps;
    }
    var blueprints := GetBlueprints(env.files.value, env.read, env.parse);
    if blueprints == map[] {
      return NoBlueprints, steps;
    }
    steps := steps + [ListAutomations];
    if env.automations.None? {
      return ListFailed, steps;
    }
    var updated, calls := UpdateAll(env.automations.value, blueprints, env.fetch, env.reload);
    RunUpdatesNeverHits(env.automations.value, blueprints, env.fetch, env.reload);
    steps := steps + calls;
    outcome := Finished(updated);
  }
}

=== FILE: uri_component.dfy ===
/**
 * `encodeURIComponent` and `decodeURIComponent`, as the URI Handling
 * Functions section of ECMA-262 (section 19.2.6) defines them: every
 * character outside the unreserved set is written as the `%XX` escapes of
 * its UTF-8 bytes, with upper-case hexadecimal digits. A Dafny `char` is a
 * Unicode scalar value, so the lone surrogates on which `encodeURIComponent`
 * throws do not arise.
 */
module UriComponent {
  import opened Wrappers

  type Byte = b: int | 0 <= b < 256

  /**
   * The characters `encodeURIComponent` leaves as they are: ASCII letters,
   * decimal digits and `- _ . ! ~ * ' ( )`.
   */
  predicate IsUnreserved(c: char) {
    || 'A' <= c <= 'Z' || 'a' <= c <= 'z' || '0' <= c <= '9'
    || c == '-' || c == '_' || c == '.' || c == '!' || c == '~'
    || c == '*' || c == '\'' || c == '(' || c == ')'
  }

  /** The upper-case hexadecimal digit of `n`. */
  function HexDigit(n: int): (c: char)
    requires 0 <= n < 16
    ensures IsUnreserved(c)
  {
    if n < 10 then ('0' as int + n) as char else ('A' as int + n - 10) as char
  }

  /** The value of a hexadecimal digit of either case. */
  function HexValue(c: char): Option<int>
  {
    if '0' <= c <= '9' then Some(c as int - '0' as int)
    else if 'A' <= c <= 'F' then Some(c as int - 'A' as int + 10)
    else if 'a' <= c <= 'f' then Some(c as int - 'a' as int + 10)
    else None
  }

  /** The UTF-8 encoding of one Unicode scalar value: one to four bytes. */
  function Utf8(c: char): (bytes: seq<Byte>)
    ensures 1 <= |bytes| <= 4
  {
    var cp := c as int;
    if cp < 0x80 then [cp]
    else if cp < 0x800 then [0xC0 + cp / 64, 0x80 + cp % 64]
    else if cp < 0x10000 then [0xE0 + cp / 4096, 0x80 + (cp / 64) % 64, 0x80 + cp % 64]
    else [0xF0 + cp / 262144, 0x80 + (cp / 4096) % 64, 0x80 + (cp / 64) % 64, 0x80 + cp % 64]
  }

  /** `%XY` for one byte. */
  function Escape(b: Byte): string {
    ['%', HexDigit(b / 16), HexDigit(b % 16)]
  }

  function EscapeBytes(bytes: seq<Byte>): (r: string)
    ensures |r| == 3 * |bytes|
    ensures forall i :: 0 <= i < |r| ==> IsUnreserved(r[i]) || r[i] == '%'
  {
    if bytes == [] then [] else Escape(bytes[0]) + EscapeBytes(bytes[1..])
  }

  /** Byte `k` becomes the three characters from index `3 * k`: `%` and its two hex digits. */
  lemma {:induction false} EscapeBytesAt(bytes: seq<Byte>, k: nat)
    requires k < |bytes|
    ensures EscapeBytes(bytes)[3 * k..3 * k + 3] == ['%', HexDigit(bytes[k] / 16), HexDigit(bytes[k] % 16)]
    decreases k
  {
    var rest := EscapeBytes(bytes[1..]);
    assert EscapeBytes(bytes) == Escape(bytes[0]) + rest;
    if k > 0 {
      EscapeBytesAt(bytes[1..], k - 1);
      assert EscapeBytes(bytes)[3 * k..3 * k + 3] == rest[3 * (k - 1)..3 * (k - 1) + 3];
    }
  }

  function EncodeChar(c: char): (r: string)
    ensures forall i :: 0 <= i < |r| ==> IsUnreserved(r[i]) || r[i] == '%'
  {
    if IsUnreserved(c) then [c] else EscapeBytes(Utf8(c))
  }

  /**
   * `encodeURIComponent(s)`. The result holds only unreserved characters
   * and `%`, so none of the URI delimiters `/ : ? # & = +`.
   */
  function Encode(s: string): (r: string)
    ensures forall i :: 0 <= i < |r| ==> IsUnreserved(r[i]) || r[i] == '%'
  {
    if s == [] then [] else EncodeChar(s[0]) + Encode(s[1..])
  }

  // ---------------------------------------------------------------------------
  // decodeURIComponent

  /** The byte written as `%XY` at the front of `s`, if `s` starts with one. */
  function EscapedByte(s: string): Option<Byte>
  {
    if |s| >= 3 && s[0] == '%' && HexValue(s[1]).Some? && HexValue(s[2]).Some? then
      Some(HexValue(s[1]).value * 16 + HexValue(s[2]).value)
    else None
  }

  /**
   * The length of the UTF-8 sequence a leading byte opens: its number of
   * leading one bits, 1 for an ASCII byte, and 0 (an error) for 1 or more
   * than 4 leading ones.
   */
  function SequenceLength(b: Byte): nat {
    if b < 0x80 then 1
    else if b < 0xC0 then 0
    else if b < 0xE0 then 2
    else if b < 0xF0 then 3
    else if b < 0xF8 then 4
    else 0
  }

  predicate IsContinuation(b: Byte) {
    0x80 <= b < 0xC0
  }

  /** `count` escaped continuation bytes at the front of `s`. */
  function ContinuationBytes(s: string, count: nat): (r: Option<seq<Byte>>)
    ensures r.Some? ==> |r.value| == count && 3 * count <= |s|
    ensures r.Some? ==> forall i :: 0 <= i < count ==> IsContinuation(r.value[i])
  {
    if count == 0 then Some([])
    else
      var b := EscapedByte(s);
      if b.None? || !IsContinuation(b.value) then None
      else
        var tail := ContinuationBytes(s[3..], count - 1);
        if tail.None? then None else Some([b.value] + tail.value)
  }

  predicate IsScalarValue(cp: int) {
    0 <= cp < 0xD800 || 0xE000 <= cp < 0x110000
  }

  /**
   * The code point a multi-byte UTF-8 sequence encodes, rejecting overlong
   * forms, surrogates and values above U+10FFFF.
   */
  function DecodeUtf8(lead: Byte, tail: seq<Byte>): Option<char>
    requires 0xC0 <= lead < 0xF8 && |tail| == SequenceLength(lead) - 1
    requires forall i :: 0 <= i < |tail| ==> IsContinuation(tail[i])
  {
    var b0: int := lead;
    var cp :=
      if |tail| == 1 then (b0 - 0xC0) * 64 + (tail[0] as int - 0x80)
      else if |tail| == 2 then (b0 - 0xE0) * 4096 + (tail[0] as int - 0x80) * 64 + (tail[1] as int - 0x80)
      else (b0 - 0xF0) * 262144 + (tail[0] as int - 0x80) * 4096 + (tail[1] as int - 0x80) * 64 + (tail[2] as int - 0x80);
    var least := if |tail| == 1 then 0x80 else if |tail| == 2 then 0x800 else 0x10000;
    if least <= cp && IsScalarValue(cp) then Some(cp as char) else None
  }

  /**
   * The character an escape sequence at the front of `s` stands for, and how
   * many characters of `s` it takes.
   */
  function DecodeSequence(s: string): (r: Option<(char, nat)>)
    ensures r.Some? ==> 3 <= r.value.1 <= |s|
  {
    var lead := EscapedByte(s);
    if lead.None? then None
    else
      var n := SequenceLength(lead.value);
      if n == 0 then None
      else if n == 1 then Some((lead.value as char, 3))
      else
        var tail := ContinuationBytes(s[3..], n - 1);
        if tail.None? then None
        else
          var c := DecodeUtf8(lead.value, tail.value);
          if c.None? then None else Some((c.value, 3 * n))
  }

  /** `decodeURIComponent(s)`; `None` where it throws a URIError. */
  function Decode(s: string): Option<string>
    decreases |s|
  {
    if s == [] then Some([])
    else if s[0] != '%' then
      var rest := Decode(s[1..]);
      if rest.None? then None else Some([s[0]] + rest.value)
    else
      var first := DecodeSequence(s);
      if first.None? then None
      else
        var rest := Decode(s[first.value.1..]);
        if rest.None? then None else Some([first.value.0] + rest.value)
  }

  // ---------------------------------------------------------------------------
  // Round trip

  lemma HexRoundTrip(n: int)
    requires 0 <= n < 16
    ensures HexValue(HexDigit(n)) == Some(n)
  {
  }

  lemma {:induction false} EscapedByteOfEscape(b: Byte, rest: string)
    ensures EscapedByte(Escape(b) + rest) == Some(b)
  {
    HexRoundTrip(b / 16);
    HexRoundTrip(b % 16);
  }

  lemma {:induction false} ContinuationBytesOfEscapes(tail: seq<Byte>, rest: string)
    requires forall i :: 0 <= i < |tail| ==> IsContinuation(tail[i])
    ensures ContinuationBytes(EscapeBytes(tail) + rest, |tail|) == Some(tail)
  {
    if tail != [] {
      var s := EscapeBytes(tail) + rest;
      assert s == Escape(tail[0]) + (EscapeBytes(tail[1..]) + rest);
      EscapedByteOfEscape(tail[0], EscapeBytes(tail[1..]) + rest);
      assert s[3..] == EscapeBytes(tail[1..]) + rest;
      ContinuationBytesOfEscapes(tail[1..], rest);
      assert [tail[0]] + tail[1..] == tail;
    }
  }

  lemma DivDiv64(x: nat)
    ensures x / 64 / 64 == x / 4096
    ensures x / 4096 / 64 == x / 262144
  {
  }

  /** Decoding the UTF-8 bytes of a multi-byte character gives the character back. */
  lemma Utf8RoundTrip(c: char)
    requires c as int >= 0x80
    ensures var bytes := Utf8(c);
      && 0xC0 <= bytes[0] < 0xF8 && |bytes| == SequenceLength(bytes[0])
      && (forall i :: 1 <= i < |bytes| ==> IsContinuation(bytes[i]))
      && DecodeUtf8(bytes[0], bytes[1..]) == Some(c)
  {
    var cp := c as int;
    DivDiv64(cp);
  }

  /** An escaped character at the front of a string is read back whole. */
  lemma {:induction false} DecodeSequenceOfEncodeChar(c: char, rest: string)
    requires !IsUnreserved(c)
    ensures DecodeSequence(EncodeChar(c) + rest) == Some((c, |EncodeChar(c)|))
  {
    var bytes := Utf8(c);
    var s := EncodeChar(c) + rest;
    assert s == Escape(bytes[0]) + (EscapeBytes(bytes[1..]) + rest);
    EscapedByteOfEscape(bytes[0], EscapeBytes(bytes[1..]) + rest);
    if c as int >= 0x80 {
      Utf8RoundTrip(c);
      assert s[3..] == EscapeBytes(bytes[1..]) + rest;
      ContinuationBytesOfEscapes(bytes[1..], rest);
    }
  }

  /** `decodeURIComponent(encodeURIComponent(s)) == s` for every string. */
  lemma {:induction false} DecodeEncode(s: string)
    ensures Decode(Encode(s)) == Some(s)
  {
    if s != [] {
      var e := EncodeChar(s[0]);
      var t := Encode(s[1..]);
      DecodeEncode(s[1..]);
      assert Encode(s) == e + t;
      if IsUnreserved(s[0]) {
        assert (e + t)[1..] == t;
      } else {
        DecodeSequenceOfEncodeChar(s[0], t);
        assert (e + t)[|e|..] == t;
      }
      assert [s[0]] + s[1..] == s;
    }
  }
}

=== FILE: wrappers.dfy ===
/** The optional value used for absent environment variables, failed reads and failed parses. */
module Wrappers {

  datatype Option<+T> = None | Some(value: T) {

    /** The value, or `default` when there is none (JavaScript's `x || default` on an optional). */
    function GetOr(default: T): T {
      match this
      case Some(v) => v
      case None => default
    }
  }
}
